=== FILE: README.md ===
# Logstreamity replay core in Dafny

Logstreamity is a browser tool that replays a log file into a log-ingest
endpoint. The user uploads a text file, and the page turns each line into a
JSON log record. The records are posted to `…/api/v2/logs/ingest` with an
API token. There are three modes:

- **sequential**: an interval timer sends `volume` lines per tick, and
  `[[[SLEEP n]]]` lines pause the dispatcher;
- **historic**: the whole file is sent in one pass, with timestamps 10 ms
  apart from a chosen start;
- **scattered**: the whole file is sent in one pass, with timestamps spread
  over a time range in randomly sized chunks.

A sidebar registry keeps a list of named workers with their own settings.

This project models that core as pure Dafny functions and proves properties
about them:

- `Endpoint` (`endpoint.dfy`): URL normalisation.
- `Timestamp` (`timestamp.dfy`): timestamp synthesis for the three modes,
  including the random chunk boundaries of scattered mode.
- `Payload` (`payload.dfy`): the line-to-record conversion, the sleep
  directive and the merge of the selected attributes.
- `Batch` (`batch.dfy`): the dispatcher `sendLogBatch`. It is split into a
  pure *plan* and an *execution* of that plan against the transport:
  - outside sequential mode the plan is windows of at most 90 records,
    separated by 50 ms pauses;
  - in sequential mode the plan is one request per record, plus the sleeps.
- `Replay` (`replay.dfy`): the session of the main page. This covers file
  loading, the start button with its guard and defaults, one interval tick,
  and the stop, loop and randomize buttons.
- `Workers` (`workers.dfy`): the `WorkerManager` registry.
- `Text`, `Json` and `Wrappers`: the JavaScript string operations the code
  relies on (`trim`, `split`, `join`, `endsWith`, first-match `replace`),
  JSON values with JavaScript truthiness, and `Option`.

Everything the program cannot decide by itself is a parameter:

- `JSON.parse` is a function from strings to parsed values.
- Date parsing is a function from strings to optional epoch milliseconds.
- The clock is an integer.
- Each `Math.random()` stream is a function from draw numbers to reals.
- ISO formatting is a function of the millisecond value of a valid instant.
- The network is a sequence of booleans: the k-th request of a call
  succeeds exactly when entry k is true. A request beyond the end of the
  sequence fails, like a network error.

A call of `sendLogBatch` produces a trace of `Send` and `Wait` events, and
the trace takes the place of the real requests and timers.

The model follows the code, including where the code does not do what its
comments or messages suggest:

- **Dead endpoint guard.** `processEndpointUrl` always appends the ingest
  path, so the `!endpoint` test of the start guard can never fire
  (`Replay.StartGuard`).
- **Not idempotent.** `processEndpointUrl` replaces only the first
  `.apps.`, so `a.apps.apps.b` needs two passes to settle
  (`Endpoint.ProcessEndpointUrlNotIdempotent`).
- **Boundaries can overshoot.** In scattered mode a random chunk boundary
  can pass the number of lines (`Timestamp.BoundariesOvershoot`). After
  that, the maximum `m` for the next step is negative, and the step lies in
  [m+1, 1]: it can be positive, zero or negative (`Timestamp.BoundaryStep`).
  While no boundary has passed the end, the boundaries are guaranteed to
  increase (`Timestamp.BoundariesIncreasing`).
- **Stale line index.** Historic and scattered runs number their lines from
  the index left behind by the previous run, not from 0. The options object
  is filled in before the index is reset (`Replay.PassUsesStaleIndex`).
- **Tick advance.** A tick adds `volume` to the index even when the batch is
  shorter or the send failed. Only a call that throws leaves the index
  unchanged (`Replay.TickSends`).
- **Sleeps outside sequential mode.** There, `[[[SLEEP n]]]` records are
  filtered out of every window and never waited for (`Batch.WindowPlanSends`,
  `Batch.SendLogBatchModes`). The payloads are cut into windows at offsets
  0, 90, 180, ... before the sleeps are dropped, so a sleep makes its window
  smaller rather than pulling later records forward, and a window that
  holds only sleeps is skipped while the previous window still pauses
  (`Batch.WindowPlanByWindows`).
- **`[[[SLEEP 0]]]`.** It becomes a `{sleep: 0}` record. Since `0` is falsy,
  that record is posted as a log record (`Batch.ZeroSleepIsSent`).
- **Scalar JSON lines.** A line that parses to a JSON scalar or `null` makes
  `buildPayload` throw, because the module is in strict mode. The throw
  rejects the whole `sendLogBatch` call before anything is sent
  (`Payload.BuildPayloadThrows`, `Batch.LineThrowRejects`).
- **Timestamps of blank lines.** The timestamp is computed for every line
  that is not a sleep directive, before the blank check. A timestamp that
  throws, such as an out-of-range historic instant, rejects the call even
  for a blank line passed to `sendLogBatch` (`Batch.ClockFailureRejects`).

## Model

| member | source | states |
|---|---|---|
| Endpoint.ProcessEndpointUrl | src/ingest.js:3-13 | every processed endpoint ends with the ingest path |
| Endpoint.ProcessEndpointUrlCases | src/ingest.js:4-10 | a normalised url that already ends with the ingest path is kept; otherwise the part before the third `/` gets the ingest path appended |
| Endpoint.ProcessedEdges | src/ingest.js:3-13 | the result is non-empty, starts with a non-space and ends in `t`, so trimming it changes nothing |
| Endpoint.ProcessEndpointUrlIdempotent | src/ingest.js:3-13 | processing twice equals processing once when the result holds no `.apps.` |
| Endpoint.ProcessEndpointUrlNotIdempotent | src/ingest.js:5 | `a.apps.apps.b` gives `a.apps.b` plus the path, and a second pass changes it to `a.b` plus the path |
| Endpoint.BlankEndpointStillNonEmpty | src/ingest.js:3-13 | a blank endpoint becomes exactly the ingest path, not an empty string |
| Timestamp.TimeClip | src/ingest.js:25 | a time value is valid exactly when its magnitude is at most 8.64e15 ms |
| Timestamp.RandomIntRange | src/ingest.js:17 | `getRandomInt(lo, hi)` lies in [lo, hi] when lo ≤ hi, and in [hi+1, lo] when the bounds are reversed |
| Timestamp.HistoricValue | src/ingest.js:23-31 | with a valid start, line i is stamped exactly start + 10·i ms when that is a valid date, and throws a RangeError when it is not |
| Timestamp.HistoricSpacing | src/ingest.js:23-31 | when the start is valid and both lines' instants are valid dates, both lines get instants that differ by exactly 10 ms per line of distance and increase with the index |
| Timestamp.HistoricFallback | src/ingest.js:24-25 | a start that does not parse gives the current time |
| Timestamp.IntOr | src/ingest.js:39 | `parsed \|\| fallback`: a nonzero parsed number wins; NaN or 0 gives the fallback |
| Timestamp.ChunkCount | src/ingest.js:39 | the chunk count is never 0, and is the parsed value when that is nonzero |
| Timestamp.Boundaries | src/ingest.js:42-44 | there are chunks+1 boundaries, the first is 0 and the last is the line count |
| Timestamp.BoundariesFollowDraws | src/ingest.js:47-52 | each intermediate boundary adds `getRandomInt(1, maxForChunk)` of its own draw to the previous one |
| Timestamp.BoundaryStep | src/ingest.js:47-52 | each step lies in [1, m] for a positive maximum m, is 1 for m = 0, and lies in [m+1, 1] for a negative m; m is negative exactly when the previous boundary passed the line count |
| Timestamp.BoundariesIncreasing | src/ingest.js:47-52 | while no earlier boundary exceeds the line count, the boundaries 0..chunks-1 strictly increase |
| Timestamp.BoundariesOvershoot | src/ingest.js:50-51 | with 10 lines, 2 chunks and a draw of 0.75, the boundaries are [0, 16, 10] |
| Timestamp.FindChunk | src/ingest.js:55-58 | the lookup loop stops at the first chunk whose end boundary lies beyond the index, or at `chunks` |
| Timestamp.FindChunkInBounds | src/ingest.js:55-58 | for an index below the last boundary the chunk found is a real chunk, and the index lies below its end and, when the index is non-negative, at or after its start |
| Timestamp.ScatteredStamp | src/ingest.js:33-71 | a scattered timestamp lies in a chunk numbered below the chunk count, and the line index lies in that chunk's range |
| Timestamp.ScatteredFallback | src/ingest.js:34-36 | a scattered start or end that does not parse, or lies outside the range of dates, gives the current time whatever the chunk count |
| Timestamp.ScatteredInBounds | src/ingest.js:33-71 | with valid start and end and a chunk count from 1 to 2^32-2, a line inside the file gets the chunk whose boundaries enclose it, and is placed in that chunk with the draw that follows the boundary draws |
| Timestamp.ScatteredTooManyChunks | src/ingest.js:42 | a chunk count of 2^32-1 or more makes the boundary array length invalid, so the scattered timestamp throws a RangeError |
| Timestamp.Trunc | src/ingest.js:69 | `new Date(x)` keeps the integral part of x, rounded toward zero |
| Timestamp.PlaceInChunk | src/ingest.js:60-70 | placing a line gives its chunk with that chunk's line range exactly when the instant chunkStart + duration·progress + jitter is a valid date, and then its milliseconds are that instant truncated toward zero; otherwise a RangeError |
| Timestamp.PlacedNearChunk | src/ingest.js:60-69 | a placed line's instant lies within its chunk's slice of the window (start + total·c/chunks, lasting total/chunks), widened by the jitter bound and the dropped fraction |
| Timestamp.ChunkInstantIncreasing | src/ingest.js:60-69 | in a forward window, a later line of the same chunk gets a strictly later instant for the same jitter |
| Timestamp.ScatteredNegativeChunks | src/ingest.js:39-71 | a negative chunk count makes the scattered timestamp throw a RangeError: an invalid array length, or for -1 a date that is NaN |
| Timestamp.JitterRange | src/ingest.js:66-69 | the jitter lies within ±10% of one chunk's duration |
| Timestamp.GetCurrentTimestamp | src/ingest.js:19-78 | sequential mode uses the clock, historic mode the historic stamp of the line's index and scattered mode the scattered stamp; only scattered mode yields chunk positions |
| Payload.SleepDigitsSpec | src/ingest.js:85 | the directive matcher accepts exactly `[[[SLEEP`, one or more blanks, one or more digits, `]]]`, and returns the digits |
| Payload.SleepMillis | src/ingest.js:118-120 | a number is read exactly from directive lines |
| Payload.Merge | src/ingest.js:100-106 | the selected attributes overwrite the record's fields except `timestamp`; other fields are kept; a truthy `timestamp` survives, otherwise the synthesised one is set |
| Payload.BuildPayloadSkips | src/ingest.js:80-87 | a line yields no record exactly when it is blank or a sleep directive |
| Payload.BuildUnskipped | src/ingest.js:80-109 | any other line is built from what `JSON.parse` makes of it |
| Payload.BuildPayloadThrows | src/ingest.js:89-106 | a line throws exactly when it is neither blank nor a sleep directive and parses to a scalar or `null` |
| Payload.BuildPlainLine | src/ingest.js:93-97 | a line that is not JSON becomes `{content, timestamp}` merged with the attributes |
| Payload.BuildObjectLine | src/ingest.js:92 | a JSON object line keeps its fields, merged with the attributes |
| Batch.GatherSpec | src/ingest.js:115-129 | building the records rejects exactly when some line's record throws; otherwise the result is the non-null records in order |
| Batch.Window | src/ingest.js:136-137 | every window holds between 1 and 90 records and is the front of what remains |
| Batch.WindowPlanSends | src/ingest.js:133-166 | outside sequential mode the windows send exactly the records without a truthy `sleep`, in order |
| Batch.WindowPlanBatches | src/ingest.js:137-140 | every request outside sequential mode carries 1 to 90 records, none with a truthy `sleep` |
| Batch.WindowPlanPauses | src/ingest.js:157-160 | every pause is 50 ms and comes straight after a request |
| Batch.WindowPlanByWindows | src/ingest.js:134-165 | the window plan is, window by window, the sleep-free part of the slice at offset 90j in one request (nothing when that part is empty), followed by the 50 ms pause exactly when 90j + 90 is below the number of records |
| Batch.WindowPlanRequests | src/ingest.js:136 | without sleep records, n records need ⌈n/90⌉ requests |
| Batch.WindowPlanPauseCount | src/ingest.js:157-160 | without sleep records the pauses fall only between windows: one fewer pause than requests |
| Batch.SinglePlanSpec | src/ingest.js:170-194 | sequential mode sends each record without a truthy `sleep` alone and in order, and waits for each sleep in order |
| Batch.SinglePlanPositions | src/ingest.js:170-194 | the sequential plan has one event per record at the record's own position: a wait for a truthy sleep, otherwise a one-record request, so sleeps are waited for between their neighbours' requests |
| Batch.ExecuteFollowsPlan | src/ingest.js:142-164 | what happens is a prefix of the plan, and all of it when the call succeeds |
| Batch.ExecuteAnswers | src/ingest.js:152-155 | a call succeeds exactly when the transport accepts every request it made |
| Batch.ExecuteStopsAtRefusal | src/ingest.js:186-192 | a failing call stops right after a refused request, and every request before it was accepted |
| Batch.ExecuteAllAccepted | src/ingest.js:166 | when every request is accepted the whole plan is carried out and the call succeeds |
| Batch.ZeroSleepIsSent | src/ingest.js:120 | `[[[SLEEP 0]]]` becomes `{sleep: 0}`, which is sent as a record |
| Batch.SendLogBatch | src/ingest.js:111-197 | the call rejects exactly when building some record throws; no records means success without any request |
| Batch.EntryOfThrows | src/ingest.js:114-127 | a line's record throws exactly when the line is not a sleep directive and either its timestamp or its payload throws |
| Batch.LineThrowRejects | src/ingest.js:114-129 | a line that throws rejects the whole call |
| Batch.ClockFailureRejects | src/ingest.js:114-129 | a line other than a sleep directive whose timestamp throws rejects the call, even when the line is blank |
| Batch.NoThrowReturns | src/ingest.js:114-129 | when no line throws, the call returns |
| Batch.SendLogBatchPlan | src/ingest.js:131-197 | sequential mode carries out the one-by-one plan and every other mode the windows of 90: the events are a prefix of that plan, and all of it on success |
| Batch.SendLogBatchModes | src/ingest.js:134-194 | outside sequential mode every request carries 1 to 90 sleep-free records and every wait is a 50 ms pause after a request; in sequential mode every request carries one record that is not a sleep, and the waits are a prefix of the sleeps |
| Batch.SendLogBatchSends | src/ingest.js:111-197 | the records sent are a prefix of the sendable records, all of them on success, and success means every request was accepted |
| Replay.Pieces | src/main.js:142 | `split(/\r?\n/)` gives one piece per newline-separated part; a piece before a newline loses the carriage return that preceded it, the last piece keeps a trailing one, and no piece holds a newline |
| Replay.DropCR | src/main.js:142 | at most one trailing carriage return is removed |
| Replay.NonBlankSound | src/main.js:142 | every loaded line comes from the file and is not blank |
| Replay.NonBlankKeepsAll | src/main.js:142 | a list with no blank line is kept whole |
| Replay.NonBlankSingle | src/main.js:142 | a single line is kept exactly when it is not blank |
| Replay.NonBlankAppend | src/main.js:142 | filtering a concatenation filters each part, so a blank line drops only itself and every non-blank line is kept in order |
| Replay.LoadedLinesClean | src/main.js:142 | no loaded line is blank or holds a newline |
| Replay.LoadJoinedLines | src/main.js:141-143 | loading non-blank lines joined by newlines gives those lines back |
| Replay.ReadForm | src/main.js:150-153 | the endpoint is processed, the token trimmed, and delay and volume fall back to 1000 and 1 when the field is NaN or 0 |
| Replay.Start | src/main.js:149-236 | start is refused exactly when the guard fails; otherwise the index becomes 0, scattered mode turns randomize on, only sequential mode starts ticking, and the run keeps the settings read from the form |
| Replay.StartGuard | src/main.js:150-158 | the processed endpoint is never empty, so start is refused exactly for a blank token or no lines |
| Replay.PassUsesStaleIndex | src/main.js:166-176 | the one-pass call numbers lines from the index of the previous run |
| Replay.SlicePos | src/main.js:209 | slice positions count negatives from the end and are clamped to the length |
| Replay.Slice | src/main.js:209 | within bounds, `slice(from, to)` is the subsequence cut at the end |
| Replay.Tick | src/main.js:192-217 | the tick completes exactly at the end with loop off, and otherwise keeps ticking |
| Replay.TickSends | src/main.js:193-213 | a tick sends the next `volume` lines from the index, or from 0 after wrapping, and advances by `volume` unless the call threw; the call sends exactly that batch, numbered from the index it starts at |
| Replay.TickDrawRanges | src/main.js:207-208 | randomized volume lies in [1, base] and randomized delay in [0, base] |
| Replay.TickProgress | src/main.js:192-217 | with a positive volume a successful tick moves the index forward by 1 to base, and a throwing one leaves it unchanged |
| Replay.Stop | src/main.js:238-245 | stop clears the interval and the loop flag and changes nothing else |
| Replay.ToggleLoop | src/main.js:247-251 | the loop button flips the loop flag and nothing else |
| Replay.ToggleRandomize | src/main.js:253-258 | the randomize button flips the randomize flag and nothing else |
| Replay.Load | src/main.js:137-147 | loading a file replaces only the lines, all non-blank |
| Replay.ButtonsAlgebra | src/main.js:238-258 | stopping is idempotent and each toggle is its own inverse |
| Workers.FreshValid | src/worker.js:5-9 | the registry a new manager starts with satisfies the registry invariant |
| Workers.Decimal | src/worker.js:18 | the id rendering is digits without a leading zero |
| Workers.DecimalRoundTrip | src/worker.js:18 | reading the rendered id back gives the id |
| Workers.AddWorker | src/worker.js:15-37 | the new worker takes the counter as id, is appended with status Idle, progress 0 and the default settings, and the counter moves on; the name is the given one or `Worker #<id>` |
| Workers.AddKeepsValid | src/worker.js:15-37 | adding keeps ids unique, increasing and below the counter |
| Workers.AddedIdIsNew | src/worker.js:17 | the new id is larger than every existing id |
| Workers.AddThenGet | src/worker.js:15-41 | looking up the new id finds the new worker |
| Workers.IndexOf | src/worker.js:40 | the lookup finds the first worker with the id, or reports that none has it |
| Workers.UpdateWorkerSpec | src/worker.js:43-47 | only the worker with the id changes: its settings become the old ones overwritten by the changes |
| Workers.UpdateKeepsValid | src/worker.js:43-47 | updating keeps the registry invariant and the counter |
| Workers.WithoutMembers | src/worker.js:50 | the filter keeps exactly the workers with another id |
| Workers.WithoutAppend | src/worker.js:50 | filtering a concatenation filters each part, so killing keeps the survivors in their order |
| Workers.WithoutKeepsFirst | src/worker.js:40-50 | after a kill, the first worker with any other id is still the first one with that id |
| Workers.KillKeepsValid | src/worker.js:49-52 | killing keeps the registry invariant and the counter |
| Workers.KillThenGet | src/worker.js:49-52 | after a kill the id is gone and every other id is found exactly as before |
| Workers.RenameWorkerSpec | src/worker.js:54-60 | only the worker with the id is renamed, and only for a non-empty name |
| Workers.RenameKeepsValid | src/worker.js:54-60 | renaming keeps the registry invariant and the counter |
| Text.TrimEmptyIffBlank | src/main.js:142 | a trimmed string is empty exactly when the string is all whitespace |
| Text.SplitJoin | src/main.js:142 | splitting a join of separator-free pieces gives the pieces back |
| Text.ReplaceFirstSpec | src/ingest.js:5 | replace with a string pattern rewrites only its first occurrence |

## Left out

- Network I/O: `fetch`, the request headers and `JSON.stringify` of the body are left out. A request is one answer from the boolean transport sequence, and both a non-ok response and a network error are a refused request.
- Timers: `setTimeout` waits are `Wait` events in the trace. The `setInterval` period and its clamping are not modelled.
- Overlapping ticks: an interval tick may start while an earlier asynchronous tick is still waiting. The model runs each tick to completion, one after another.
- The DOM, alerts, button states and the status log (`logStatus`) are left out. The `onUpdate` callbacks of the worker registry are left out too.
- `JSON.parse`, `new Date(text)`, `toISOString` formatting and `Math.random` are parameters. The random draws are one stream per absolute line index instead of one global stream.
- Timestamp.ScatteredStamp: the instant `chunkStartTime + chunkDuration * chunkProgress + jitter` is computed in exact real arithmetic, not in IEEE doubles, so rounding of the divisions and products is not modelled; the truncation to whole milliseconds is. Chunk counts up to 2^32-2 are modelled, but not the time and memory such a run would take.
- Timestamp.IntOr: `parseInt` is a parameter (`Option<int>`, where `None` is NaN). Its digit-by-digit reading and double precision are not modelled.
- Payload.Merge: object key order and special keys such as `__proto__` are not modelled; a record is a map.
- The `sleep` duration handed to `setTimeout` is kept as the raw value and is not converted to a delay.
- src/attributes.js, src/config.js, src/ui.js, src/webhook-worker.js and service-worker.js are not part of this model. The selected attributes arrive as a finished map.
- Replay.Tick: the delay drawn by a randomized tick is only reported. The interval keeps the base delay as its period, and the model does not schedule anything.
- The registry's `getWorkers` accessor is the `workers` field of `Workers.Manager`.

=== FILE: batch.dfy ===
/** Dispatch of a batch of lines (`sendLogBatch` in src/ingest.js). The
    transport is an oracle: the i-th request of a call succeeds exactly when
    entry i of a sequence of booleans is true, and a request beyond the end
    of that sequence fails like a network error. Pauses and sends are
    recorded in a trace instead of happening. */
module Batch {
  import opened Wrappers
  import opened Json
  import opened Text
  import opened Timestamp
  import opened Payload

  /** At most this many payloads go into one request outside sequential mode. */
  const RateLimitPerSecond: nat := 90

  /** The pause between two windows, in milliseconds. */
  const WindowPauseMs: real := 50.0

  /** The oracles a call depends on: `JSON.parse`, and the ISO timestamp
      `getCurrentTimestamp` returns for an absolute line index (`None` when
      formatting throws a RangeError). */
  datatype Env = Env(json: Parser, clock: int -> Option<string>)

  /** What the dispatcher does, in order: one request carrying `batch`, or a
      `setTimeout` wait of `duration` (the raw value, as JavaScript coerces
      it). */
  datatype Event = Send(batch: seq<Payload>) | Wait(duration: Value)

  /** A completed call: its result and its trace. */
  datatype Run = Run(ok: bool, trace: seq<Event>)

  /** A call either returns a run or rejects before sending anything. */
  datatype Completion = Returned(run: Run) | Rejected

  /** Whether the transport accepts the `k`-th request. */
  function Answer(oracle: seq<bool>, k: nat): bool {
    k < |oracle| && oracle[k]
  }

  // ---------------------------------------------------------------------
  // Trace measures

  /** The number of requests in a trace. */
  function Sends(t: seq<Event>): nat {
    if |t| == 0 then 0 else (if t[0].Send? then 1 else 0) + Sends(t[1..])
  }

  /** Everything a trace sent, in order. */
  function Sent(t: seq<Event>): seq<Payload> {
    if |t| == 0 then [] else (if t[0].Send? then t[0].batch else []) + Sent(t[1..])
  }

  /** The durations a trace waited, in order. */
  function Waited(t: seq<Event>): seq<Value> {
    if |t| == 0 then [] else (if t[0].Wait? then [t[0].duration] else []) + Waited(t[1..])
  }

  lemma {:induction false} SendsAppend(a: seq<Event>, b: seq<Event>)
    ensures Sends(a + b) == Sends(a) + Sends(b)
  {
    if |a| == 0 {
      assert a + b == b;
    } else {
      assert (a + b)[0] == a[0];
      assert (a + b)[1..] == a[1..] + b;
      SendsAppend(a[1..], b);
    }
  }

  lemma {:induction false} SentAppend(a: seq<Event>, b: seq<Event>)
    ensures Sent(a + b) == Sent(a) + Sent(b)
  {
    if |a| == 0 {
      assert a + b == b;
    } else {
      assert (a + b)[0] == a[0];
      assert (a + b)[1..] == a[1..] + b;
      SentAppend(a[1..], b);
    }
  }

  lemma {:induction false} WaitedAppend(a: seq<Event>, b: seq<Event>)
    ensures Waited(a + b) == Waited(a) + Waited(b)
  {
    if |a| == 0 {
      assert a + b == b;
    } else {
      assert (a + b)[0] == a[0];
      assert (a + b)[1..] == a[1..] + b;
      WaitedAppend(a[1..], b);
    }
  }

  /** The payloads that are not waited on: those without a truthy `sleep`. */
  function Sendable(ps: seq<Payload>): (r: seq<Payload>)
    ensures |r| <= |ps|
  {
    if |ps| == 0 then [] else (if HasSleep(ps[0]) then [] else [ps[0]]) + Sendable(ps[1..])
  }

  /** The values of the truthy `sleep` fields, in order. */
  function Sleeps(ps: seq<Payload>): seq<Value> {
    if |ps| == 0 then []
    else (if HasSleep(ps[0]) then [ps[0].fields[SleepKey]] else []) + Sleeps(ps[1..])
  }

  lemma {:induction false} SendableAppend(a: seq<Payload>, b: seq<Payload>)
    ensures Sendable(a + b) == Sendable(a) + Sendable(b)
  {
    if |a| == 0 {
      assert a + b == b;
    } else {
      var h := if HasSleep(a[0]) then [] else [a[0]];
      assert (a + b)[0] == a[0];
      assert (a + b)[1..] == a[1..] + b;
      assert Sendable(a + b) == h + Sendable(a[1..] + b);
      SendableAppend(a[1..], b);
      assert h + (Sendable(a[1..]) + Sendable(b)) == (h + Sendable(a[1..])) + Sendable(b);
    }
  }

  /** No payload of `ps` is a sleep. */
  predicate SleepFree(ps: seq<Payload>) {
    forall i :: 0 <= i < |ps| ==> !HasSleep(ps[i])
  }

  /** Filtering keeps exactly the sleep-free payloads, in order: the result
      has no sleep, and it is all of `ps` when `ps` has none. */
  lemma {:induction false} SendableSleepFree(ps: seq<Payload>)
    ensures SleepFree(Sendable(ps))
    ensures SleepFree(ps) ==> Sendable(ps) == ps
  {
    if |ps| > 0 {
      var rest := Sendable(ps[1..]);
      var head := if HasSleep(ps[0]) then [] else [ps[0]];
      assert Sendable(ps) == head + rest;
      SendableSleepFree(ps[1..]);
      SleepFreeAppend(head, rest);
      if SleepFree(ps) {
        assert ps == [ps[0]] + ps[1..];
        SleepFreeAppend([ps[0]], ps[1..]);
      }
    }
  }

  /** A concatenation is sleep-free exactly when both parts are. */
  lemma SleepFreeAppend(a: seq<Payload>, b: seq<Payload>)
    ensures SleepFree(a + b) <==> SleepFree(a) && SleepFree(b)
  {
    assert forall i :: 0 <= i < |a| ==> (a + b)[i] == a[i];
    assert forall i :: 0 <= i < |b| ==> (a + b)[|a| + i] == b[i];
  }

  predicate IsPrefix<T(==)>(a: seq<T>, b: seq<T>) {
    |a| <= |b| && b[..|a|] == a
  }

  // ---------------------------------------------------------------------
  // Building the payload list

  /** The entry `sendLogBatch` maps line `line` at absolute index `k` to: a
      `{sleep: n}` record for a directive, otherwise `buildPayload` with the
      line's timestamp. The timestamp is computed first, also for blank
      lines, so a failing clock throws even there. */
  function EntryOf(line: string, k: int, attrs: Attributes, env: Env): Build {
    match SleepMillis(Trim(line))
    case Some(ms) => Built(Record(map[SleepKey := Num(ms as real)]))
    case None =>
      match env.clock(k)
      case None => Throws
      case Some(iso) => BuildPayload(line, attrs, Str(iso), env.json(line))
  }

  /** `lines.map((line, index) => entry(line, base + index)).filter(p =>
      p !== null)`, where a throw inside the map aborts the whole
      expression: the built payloads in order, or `None`. */
  function Gather(lines: seq<string>, base: int, entry: (string, int) -> Build): (r: Option<seq<Payload>>)
    ensures r.Some? ==> |r.value| <= |lines|
  {
    if |lines| == 0 then Some([])
    else
      var rest := Gather(lines[1..], base + 1, entry);
      match entry(lines[0], base)
      case Throws => None
      case Skip => rest
      case Built(p) => if rest.None? then None else Some([p] + rest.value)
  }

  /** The payloads built for `lines`, in order, ignoring throws. */
  function Kept(lines: seq<string>, base: int, entry: (string, int) -> Build): seq<Payload> {
    if |lines| == 0 then []
    else
      var e := entry(lines[0], base);
      (if e.Built? then [e.payload] else []) + Kept(lines[1..], base + 1, entry)
  }

  /** Gathering fails exactly when some line's entry throws, and otherwise
      keeps every built payload, in order. */
  lemma {:induction false} GatherSpec(lines: seq<string>, base: int, entry: (string, int) -> Build)
    ensures Gather(lines, base, entry).None? <==>
      exists i :: 0 <= i < |lines| && entry(lines[i], base + i).Throws?
    ensures Gather(lines, base, entry).Some? ==> Gather(lines, base, entry).value == Kept(lines, base, entry)
  {
    if |lines| > 0 {
      GatherSpec(lines[1..], base + 1, entry);
      assert forall i :: 1 <= i < |lines| ==> lines[1..][i - 1] == lines[i] && base + 1 + (i - 1) == base + i;
      assert lines[0] == lines[0] && base + 0 == base;
    }
  }

  /** The payload list of `lines`, or `None` when building a line throws. */
  function Entries(lines: seq<string>, base: int, attrs: Attributes, env: Env): Option<seq<Payload>> {
    Gather(lines, base, (line, k) => EntryOf(line, k, attrs, env))
  }

  // ---------------------------------------------------------------------
  // Non-sequential dispatch: windows of 90

  /** `payloads.slice(i)`, which is empty once `i` passes the end. */
  function Drop<T>(xs: seq<T>, i: nat): seq<T> {
    if i <= |xs| then xs[i..] else []
  }

  /** `payloads.slice(i, i + 90)`. */
  function Window<T>(xs: seq<T>, i: nat): (r: seq<T>)
    requires i < |xs|
    ensures 0 < |r| <= RateLimitPerSecond
    ensures Drop(xs, i) == r + Drop(xs, i + RateLimitPerSecond)
  {
    if i + RateLimitPerSecond <= |xs| then xs[i..i + RateLimitPerSecond] else xs[i..]
  }

  /** The 50 ms pause after window `i`, taken unless it is the last window. */
  function Pause(ps: seq<Payload>, i: nat): seq<Event> {
    if i + RateLimitPerSecond < |ps| then [Wait(Num(WindowPauseMs))] else []
  }

  /** The events of the window loop from offset `i` when every request is
      accepted: each window's sleep-free payloads in one request (a window
      with none is skipped), each request but the last window's followed by
      the 50 ms pause. */
  function WindowPlan(ps: seq<Payload>, i: nat): seq<Event>
    decreases |ps| - i
  {
    if i >= |ps| then []
    else
      var valid := Sendable(Window(ps, i));
      if |valid| == 0 then WindowPlan(ps, i + RateLimitPerSecond)
      else [Send(valid)] + Pause(ps, i) + WindowPlan(ps, i + RateLimitPerSecond)
  }

  /** The events of the sequential loop when every request is accepted: a
      wait for each truthy `sleep`, a one-payload request for the rest. */
  function SinglePlan(ps: seq<Payload>): seq<Event> {
    if |ps| == 0 then []
    else (if HasSleep(ps[0]) then [Wait(ps[0].fields[SleepKey])] else [Send([ps[0]])]) + SinglePlan(ps[1..])
  }

  /** Carry out `plan` against the transport, the `k`-th request being next:
      a refused request (a non-ok response or a network error) ends the
      call with `false` right after it. */
  function Execute(plan: seq<Event>, oracle: seq<bool>, k: nat): Run {
    if |plan| == 0 then Run(true, [])
    else if plan[0].Send? && !Answer(oracle, k) then Run(false, [plan[0]])
    else
      var rest := Execute(plan[1..], oracle, if plan[0].Send? then k + 1 else k);
      Run(rest.ok, [plan[0]] + rest.trace)
  }

  /** What happens is a prefix of the plan, and all of it on success. */
  lemma {:induction false} ExecuteFollowsPlan(plan: seq<Event>, oracle: seq<bool>, k: nat)
    ensures var r := Execute(plan, oracle, k);
      IsPrefix(r.trace, plan) && (r.ok ==> r.trace == plan)
  {
    if |plan| > 0 && !(plan[0].Send? && !Answer(oracle, k)) {
      ExecuteFollowsPlan(plan[1..], oracle, if plan[0].Send? then k + 1 else k);
      assert plan == [plan[0]] + plan[1..];
    }
  }

  /** Whether the `n` requests from the `k`-th on are all accepted. */
  predicate Accepted(oracle: seq<bool>, k: nat, n: nat) {
    forall j :: k <= j < k + n ==> Answer(oracle, j)
  }

  /** The number of requests of a one-event trace. */
  lemma SendsOne(e: Event)
    ensures Sends([e]) == if e.Send? then 1 else 0
  {
    assert [e][1..] == [];
  }

  /** The call succeeds exactly when every request it made was accepted. */
  lemma {:induction false} ExecuteAnswers(plan: seq<Event>, oracle: seq<bool>, k: nat)
    ensures var r := Execute(plan, oracle, k); r.ok <==> Accepted(oracle, k, Sends(r.trace))
  {
    if |plan| > 0 {
      SendsOne(plan[0]);
      if !(plan[0].Send? && !Answer(oracle, k)) {
        var k' := if plan[0].Send? then k + 1 else k;
        var rest := Execute(plan[1..], oracle, k');
        ExecuteAnswers(plan[1..], oracle, k');
        SendsAppend([plan[0]], rest.trace);
        assert Accepted(oracle, k, Sends([plan[0]] + rest.trace)) <==> Accepted(oracle, k', Sends(rest.trace));
      } else {
        assert !Accepted(oracle, k, 1);
      }
    }
  }

  /** On failure the last thing the call did was the refused request, and
      every request before it was accepted. */
  lemma {:induction false} ExecuteStopsAtRefusal(plan: seq<Event>, oracle: seq<bool>, k: nat)
    ensures var r := Execute(plan, oracle, k);
      !r.ok ==> Sends(r.trace) > 0 && r.trace[|r.trace| - 1].Send? && !Answer(oracle, k + Sends(r.trace) - 1)
    ensures var r := Execute(plan, oracle, k);
      !r.ok ==> Accepted(oracle, k, Sends(r.trace) - 1)
  {
    if |plan| > 0 {
      SendsOne(plan[0]);
      if plan[0].Send? && !Answer(oracle, k) {
        assert Execute(plan, oracle, k) == Run(false, [plan[0]]);
      } else {
        var k' := if plan[0].Send? then k + 1 else k;
        var rest := Execute(plan[1..], oracle, k');
        assert Execute(plan, oracle, k) == Run(rest.ok, [plan[0]] + rest.trace);
        ExecuteStopsAtRefusal(plan[1..], oracle, k');
        if !rest.ok {
          SendsAppend([plan[0]], rest.trace);
          assert ([plan[0]] + rest.trace)[|rest.trace|] == rest.trace[|rest.trace| - 1];
        }
      }
    }
    AcceptedBeforeRefusal(plan, oracle, k);
  }

  /** The accepted-prefix half of `ExecuteStopsAtRefusal`. */
  lemma {:induction false} AcceptedBeforeRefusal(plan: seq<Event>, oracle: seq<bool>, k: nat)
    ensures var r := Execute(plan, oracle, k);
      !r.ok ==> Sends(r.trace) > 0 && Accepted(oracle, k, Sends(r.trace) - 1)
  {
    if |plan| > 0 && !(plan[0].Send? && !Answer(oracle, k)) {
      SendsOne(plan[0]);
      var k' := if plan[0].Send? then k + 1 else k;
      var rest := Execute(plan[1..], oracle, k');
      AcceptedBeforeRefusal(plan[1..], oracle, k');
      if !rest.ok {
        SendsAppend([plan[0]], rest.trace);
        assert Sends([plan[0]] + rest.trace) == Sends([plan[0]]) + Sends(rest.trace);
      }
    }
  }

  /** When the transport accepts every planned request, the whole plan is
      carried out and the call succeeds. */
  lemma {:induction false} ExecuteAllAccepted(plan: seq<Event>, oracle: seq<bool>, k: nat)
    requires Accepted(oracle, k, Sends(plan))
    ensures Execute(plan, oracle, k) == Run(true, plan)
  {
    if |plan| > 0 {
      SendsOne(plan[0]);
      assert plan == [plan[0]] + plan[1..];
      SendsAppend([plan[0]], plan[1..]);
      ExecuteAllAccepted(plan[1..], oracle, if plan[0].Send? then k + 1 else k);
    }
  }

  /** A prefix of a trace sends a prefix of what the trace sends, and waits
      a prefix of what it waits. */
  lemma {:induction false} MeasuresOfPrefix(a: seq<Event>, b: seq<Event>)
    requires IsPrefix(a, b)
    ensures IsPrefix(Sent(a), Sent(b)) && IsPrefix(Waited(a), Waited(b))
  {
    assert b == a + b[|a|..];
    SentAppend(a, b[|a|..]);
    WaitedAppend(a, b[|a|..]);
  }

  /** The window plan sends every sleep-free payload from offset `i`, in
      order, and never waits on a sleep. */
  lemma {:induction false} WindowPlanSends(ps: seq<Payload>, i: nat)
    ensures Sent(WindowPlan(ps, i)) == Sendable(Drop(ps, i))
    decreases |ps| - i
  {
    if i < |ps| {
      var valid := Sendable(Window(ps, i));
      SendableAppend(Window(ps, i), Drop(ps, i + RateLimitPerSecond));
      WindowPlanSends(ps, i + RateLimitPerSecond);
      if |valid| != 0 {
        var head := [Send(valid)] + Pause(ps, i);
        assert Sent(head) == valid by {
          SentAppend([Send(valid)], Pause(ps, i));
          assert [Send(valid)][1..] == [];
          if Pause(ps, i) != [] { assert Pause(ps, i)[1..] == []; }
        }
        SentAppend(head, WindowPlan(ps, i + RateLimitPerSecond));
      }
    }
  }

  /** The number of windows of 90 that `n` payloads are cut into. */
  function WindowCount(n: nat): nat {
    (n + RateLimitPerSecond - 1) / RateLimitPerSecond
  }

  /** Window `j` starts inside the payloads exactly when it is counted. */
  lemma WindowCountSpec(n: nat, j: nat)
    ensures j < WindowCount(n) <==> 90 * j < n
  {
  }

  /** Window `j` on its own: the payloads at offsets 90j up to 90j + 90,
      cut at the end. */
  function WindowAt(ps: seq<Payload>, j: nat): (r: seq<Payload>)
    ensures 90 * j < |ps| ==> 0 < |r| <= RateLimitPerSecond
  {
    var lo := 90 * j;
    if lo >= |ps| then [] else ps[lo..if lo + 90 <= |ps| then lo + 90 else |ps|]
  }

  /** What the window loop does for window `j`: nothing when it holds only
      sleeps, otherwise one request with its sleep-free payloads, then the
      50 ms pause exactly when a later window starts inside the payloads,
      whatever that window holds. */
  function WindowEvents(ps: seq<Payload>, j: nat): seq<Event> {
    var valid := Sendable(WindowAt(ps, j));
    if |valid| == 0 then []
    else [Send(valid)] + (if 90 * j + 90 < |ps| then [Wait(Num(WindowPauseMs))] else [])
  }

  /** The events of a list of windows, one after the other. */
  function Flatten(ess: seq<seq<Event>>): seq<Event> {
    if |ess| == 0 then [] else ess[0] + Flatten(ess[1..])
  }

  /** Window `m`'s events, then the plan from the next window on. */
  lemma WindowPlanStep(ps: seq<Payload>, m: nat)
    requires 90 * m < |ps|
    ensures WindowPlan(ps, 90 * m) == WindowEvents(ps, m) + WindowPlan(ps, 90 * (m + 1))
  {
    assert Window(ps, 90 * m) == WindowAt(ps, m);
    assert 90 * (m + 1) == 90 * m + RateLimitPerSecond;
  }

  /** The events of windows `m`, `m + 1`, ..., `count - 1`. */
  function EventsOf(ps: seq<Payload>, m: nat, count: nat): seq<seq<Event>>
    requires m <= count
  {
    seq(count - m, k requires 0 <= k < count - m => WindowEvents(ps, m + k))
  }

  lemma EventsOfStep(ps: seq<Payload>, m: nat, count: nat)
    requires m < count
    ensures Flatten(EventsOf(ps, m, count)) == WindowEvents(ps, m) + Flatten(EventsOf(ps, m + 1, count))
  {
    var ws := EventsOf(ps, m, count);
    assert ws[1..] == EventsOf(ps, m + 1, count);
    assert ws[0] == WindowEvents(ps, m);
  }

  /** The window plan from window `m` on is the events of windows `m`,
      `m + 1`, ... in order. */
  lemma {:induction false} WindowPlanFrom(ps: seq<Payload>, m: nat)
    requires m <= WindowCount(|ps|)
    ensures WindowPlan(ps, 90 * m) == Flatten(EventsOf(ps, m, WindowCount(|ps|)))
    decreases WindowCount(|ps|) - m
  {
    var count := WindowCount(|ps|);
    WindowCountSpec(|ps|, m);
    if m < count {
      WindowPlanFrom(ps, m + 1);
      WindowPlanStep(ps, m);
      EventsOfStep(ps, m, count);
    } else {
      assert 90 * m >= |ps|;
      assert WindowPlan(ps, 90 * m) == [];
      assert EventsOf(ps, m, count) == [];
    }
  }

  /** The window loop cuts the payloads at offsets 0, 90, 180, ... before
      dropping the sleeps: its plan is the events of each window in turn,
      each window's request being the sleep-free part of that slice, and
      the pause after it depending only on its offset. */
  lemma WindowPlanByWindows(ps: seq<Payload>)
    ensures WindowPlan(ps, 0) == Flatten(EventsOf(ps, 0, WindowCount(|ps|)))
  {
    WindowPlanFrom(ps, 0);
  }

  /** Every planned request carries between 1 and 90 payloads, none of
      them a sleep. */
  lemma {:induction false} WindowPlanBatches(ps: seq<Payload>, i: nat)
    ensures forall e :: e in WindowPlan(ps, i) && e.Send? ==>
      0 < |e.batch| <= RateLimitPerSecond && SleepFree(e.batch)
    decreases |ps| - i
  {
    if i < |ps| {
      var valid := Sendable(Window(ps, i));
      WindowPlanBatches(ps, i + RateLimitPerSecond);
      if |valid| != 0 {
        SendableSleepFree(Window(ps, i));
        var rest := WindowPlan(ps, i + RateLimitPerSecond);
        assert forall e :: e in WindowPlan(ps, i) ==> e == Send(valid) || e in Pause(ps, i) || e in rest;
      }
    }
  }

  /** Every wait of `t` is the 50 ms pause and directly follows a request. */
  predicate PausesFollowSends(t: seq<Event>) {
    forall j :: 0 <= j < |t| && t[j].Wait? ==> 0 < j && t[j - 1].Send? && t[j].duration == Num(WindowPauseMs)
  }

  /** A trace that keeps the pause rule cannot start with a wait, so two
      such traces keep it when concatenated. */
  lemma PausesFollowSendsAppend(a: seq<Event>, b: seq<Event>)
    requires PausesFollowSends(a) && PausesFollowSends(b)
    ensures PausesFollowSends(a + b)
  {
    forall j | 0 <= j < |a + b| && (a + b)[j].Wait?
      ensures 0 < j && (a + b)[j - 1].Send? && (a + b)[j].duration == Num(WindowPauseMs)
    {
      if j > |a| {
        assert (a + b)[j] == b[j - |a|] && (a + b)[j - 1] == b[j - 1 - |a|];
      } else if j == |a| {
        assert false;
      } else {
        assert (a + b)[j] == a[j] && (a + b)[j - 1] == a[j - 1];
      }
    }
  }

  /** A request followed by the pause keeps the pause rule. */
  lemma SendThenPause(batch: seq<Payload>, pause: seq<Event>)
    requires pause == [] || pause == [Wait(Num(WindowPauseMs))]
    ensures PausesFollowSends([Send(batch)] + pause)
  {
    var head := [Send(batch)] + pause;
    assert head[0] == Send(batch);
  }

  /** Every planned wait is the 50 ms pause and directly follows a request. */
  lemma {:induction false} WindowPlanPauses(ps: seq<Payload>, i: nat)
    ensures PausesFollowSends(WindowPlan(ps, i))
    decreases |ps| - i
  {
    if i < |ps| {
      var valid := Sendable(Window(ps, i));
      var rest := WindowPlan(ps, i + RateLimitPerSecond);
      WindowPlanPauses(ps, i + RateLimitPerSecond);
      if |valid| != 0 {
        var head := [Send(valid)] + Pause(ps, i);
        assert WindowPlan(ps, i) == head + rest;
        SendThenPause(valid, Pause(ps, i));
        PausesFollowSendsAppend(head, rest);
      }
    }
  }

  /** Without sleeps, the window loop makes one request per started window
      of 90: a 200-line batch goes out as 90, 90 and 20. */
  lemma {:induction false} WindowPlanRequests(ps: seq<Payload>, i: nat)
    requires SleepFree(ps) && i <= |ps|
    ensures Sends(WindowPlan(ps, i)) == (|ps| - i + RateLimitPerSecond - 1) / RateLimitPerSecond
    decreases |ps| - i
  {
    if i < |ps| {
      assert SleepFree(Window(ps, i));
      SendableSleepFree(Window(ps, i));
      var head := [Send(Window(ps, i))] + Pause(ps, i);
      assert Sends(head) == 1 by {
        SendsOne(Send(Window(ps, i)));
        if Pause(ps, i) != [] { SendsOne(Pause(ps, i)[0]); assert Pause(ps, i) == [Pause(ps, i)[0]]; }
        SendsAppend([Send(Window(ps, i))], Pause(ps, i));
      }
      if i + RateLimitPerSecond <= |ps| {
        WindowPlanRequests(ps, i + RateLimitPerSecond);
        SendsAppend(head, WindowPlan(ps, i + RateLimitPerSecond));
      } else {
        assert WindowPlan(ps, i + RateLimitPerSecond) == [];
        assert head + [] == head;
      }
    }
  }

  /** A request followed by at most one pause: one request, and as many
      waits as pauses. */
  lemma SendThenPauseCounts(batch: seq<Payload>, pause: seq<Event>)
    requires pause == [] || pause == [Wait(Num(WindowPauseMs))]
    ensures Sends([Send(batch)] + pause) == 1
    ensures |Waited([Send(batch)] + pause)| == |pause|
  {
    var head := [Send(batch)] + pause;
    assert head[1..] == pause;
    if pause != [] {
      assert Waited(pause) == [Num(WindowPauseMs)] + Waited(pause[1..]);
      assert Sends(pause) == Sends(pause[1..]);
    }
  }

  /** Without sleeps, the pauses fall only between windows: one fewer pause
      than requests, none after the last window. */
  lemma {:induction false} WindowPlanPauseCount(ps: seq<Payload>, i: nat)
    requires SleepFree(ps) && i < |ps|
    ensures |Waited(WindowPlan(ps, i))| + 1 == Sends(WindowPlan(ps, i))
    decreases |ps| - i
  {
    var w := Window(ps, i);
    assert SleepFree(w);
    SendableSleepFree(w);
    assert Sendable(w) == w && |w| > 0;
    var head := [Send(w)] + Pause(ps, i);
    var rest := WindowPlan(ps, i + RateLimitPerSecond);
    assert WindowPlan(ps, i) == head + rest;
    SendsAppend(head, rest);
    WaitedAppend(head, rest);
    SendThenPauseCounts(w, Pause(ps, i));
    if i + RateLimitPerSecond < |ps| {
      WindowPlanPauseCount(ps, i + RateLimitPerSecond);
    } else {
      assert rest == [];
    }
  }

  /** A `[[[SLEEP 0]]]` line becomes the record `{sleep: 0}`, which is not
      truthy, so the loops send it as a log record instead of waiting. */
  lemma ZeroSleepIsSent(line: string, k: int, attrs: Attributes, env: Env)
    requires SleepMillis(Trim(line)) == Some(0)
    ensures EntryOf(line, k, attrs, env) == Built(Record(map[SleepKey := Num(0.0)]))
    ensures !HasSleep(Record(map[SleepKey := Num(0.0)]))
    ensures Sendable([Record(map[SleepKey := Num(0.0)])]) == [Record(map[SleepKey := Num(0.0)])]
  {
    var p := Record(map[SleepKey := Num(0.0)]);
    assert [p][1..] == [];
  }

  /** The sequential plan sends the sleep-free payloads one by one and
      waits on the sleeps, each in order. */
  lemma {:induction false} SinglePlanSpec(ps: seq<Payload>)
    ensures Sent(SinglePlan(ps)) == Sendable(ps)
    ensures Waited(SinglePlan(ps)) == Sleeps(ps)
    ensures forall e :: e in SinglePlan(ps) && e.Send? ==> |e.batch| == 1 && !HasSleep(e.batch[0])
  {
    if |ps| > 0 {
      SinglePlanSpec(ps[1..]);
      var head: seq<Event> := if HasSleep(ps[0]) then [Wait(ps[0].fields[SleepKey])] else [Send([ps[0]])];
      assert head[1..] == [];
      SentAppend(head, SinglePlan(ps[1..]));
      WaitedAppend(head, SinglePlan(ps[1..]));
      assert forall e :: e in SinglePlan(ps) ==> e in head || e in SinglePlan(ps[1..]);
    }
  }

  /** The sequential plan is one event per payload, at the payload's own
      position: a wait for a truthy sleep, otherwise a one-payload request.
      So each sleep is waited for between its neighbours' requests. */
  lemma {:induction false} SinglePlanPositions(ps: seq<Payload>)
    ensures |SinglePlan(ps)| == |ps|
    ensures forall i :: 0 <= i < |ps| ==>
      SinglePlan(ps)[i] == if HasSleep(ps[i]) then Wait(ps[i].fields[SleepKey]) else Send([ps[i]])
  {
    if |ps| > 0 {
      SinglePlanPositions(ps[1..]);
      var head: seq<Event> := if HasSleep(ps[0]) then [Wait(ps[0].fields[SleepKey])] else [Send([ps[0]])];
      assert SinglePlan(ps) == head + SinglePlan(ps[1..]);
      forall i | 1 <= i < |ps|
        ensures SinglePlan(ps)[i] == SinglePlan(ps[1..])[i - 1] && ps[1..][i - 1] == ps[i]
      {
      }
    }
  }

  /** `sendLogBatch`: build the payloads of `lines`, the first of which has
      absolute index `base`, and dispatch them. An empty payload list
      returns true without a request; a line that throws while its payload
      is built rejects the whole call before anything is sent. */
  function SendLogBatch(mode: Mode, lines: seq<string>, base: int, attrs: Attributes, env: Env, oracle: seq<bool>): (r: Completion)
    ensures r.Rejected? <==> Entries(lines, base, attrs, env).None?
    ensures r.Returned? && Entries(lines, base, attrs, env).value == [] ==> r.run == Run(true, [])
  {
    match Entries(lines, base, attrs, env)
    case None => Rejected
    case Some(ps) =>
      if |ps| == 0 then Returned(Run(true, []))
      else Returned(Execute(Plan(mode, ps), oracle, 0))
  }

  /** A line that is not a sleep directive throws while its entry is built
      when its timestamp throws, or when its payload does. */
  predicate LineThrows(line: string, k: int, attrs: Attributes, env: Env) {
    && SleepMillis(Trim(line)).None?
    && (env.clock(k).None? || BuildPayload(line, attrs, Str(env.clock(k).value), env.json(line)).Throws?)
  }

  /** The entry of a line throws exactly when the line throws. */
  lemma EntryOfThrows(line: string, k: int, attrs: Attributes, env: Env)
    ensures EntryOf(line, k, attrs, env).Throws? <==> LineThrows(line, k, attrs, env)
  {
  }

  /** A line that throws rejects the whole call. */
  lemma LineThrowRejects(mode: Mode, lines: seq<string>, base: int, attrs: Attributes, env: Env, oracle: seq<bool>, i: int)
    requires 0 <= i < |lines| && LineThrows(lines[i], base + i, attrs, env)
    ensures SendLogBatch(mode, lines, base, attrs, env, oracle).Rejected?
  {
    var entry := (line, k) => EntryOf(line, k, attrs, env);
    EntryOfThrows(lines[i], base + i, attrs, env);
    assert entry(lines[i], base + i).Throws?;
    GatherSpec(lines, base, entry);
  }

  /** In particular, a line other than a sleep directive whose timestamp
      throws rejects the call, even when the line itself is blank. */
  lemma ClockFailureRejects(mode: Mode, lines: seq<string>, base: int, attrs: Attributes, env: Env, oracle: seq<bool>, i: int)
    requires 0 <= i < |lines| && SleepMillis(Trim(lines[i])).None? && env.clock(base + i).None?
    ensures SendLogBatch(mode, lines, base, attrs, env, oracle).Rejected?
  {
    LineThrowRejects(mode, lines, base, attrs, env, oracle, i);
  }

  /** Conversely, when no line throws the call returns. */
  lemma NoThrowReturns(mode: Mode, lines: seq<string>, base: int, attrs: Attributes, env: Env, oracle: seq<bool>)
    requires forall i :: 0 <= i < |lines| ==> !LineThrows(lines[i], base + i, attrs, env)
    ensures SendLogBatch(mode, lines, base, attrs, env, oracle).Returned?
  {
    var entry := (line, k) => EntryOf(line, k, attrs, env);
    forall i | 0 <= i < |lines|
      ensures !entry(lines[i], base + i).Throws?
    {
      EntryOfThrows(lines[i], base + i, attrs, env);
    }
    GatherSpec(lines, base, entry);
  }

  /** The plan for the payload list: windows of 90 unless sequential. */
  function Plan(mode: Mode, ps: seq<Payload>): seq<Event> {
    if mode != Sequential then WindowPlan(ps, 0) else SinglePlan(ps)
  }

  /** Whatever the mode, a call that returns sends the sleep-free payloads
      in order, stops only at a refused request, and reports success
      exactly when every request was accepted. */
  lemma SendLogBatchSends(mode: Mode, lines: seq<string>, base: int, attrs: Attributes, env: Env, oracle: seq<bool>)
    requires Entries(lines, base, attrs, env).Some?
    ensures var ps := Entries(lines, base, attrs, env).value;
      var run := SendLogBatch(mode, lines, base, attrs, env, oracle).run;
      IsPrefix(Sent(run.trace), Sendable(ps)) &&
      (run.ok ==> Sent(run.trace) == Sendable(ps)) &&
      (run.ok <==> Accepted(oracle, 0, Sends(run.trace)))
  {
    var ps := Entries(lines, base, attrs, env).value;
    if |ps| > 0 {
      var plan := Plan(mode, ps);
      ExecuteFollowsPlan(plan, oracle, 0);
      ExecuteAnswers(plan, oracle, 0);
      MeasuresOfPrefix(Execute(plan, oracle, 0).trace, plan);
      if mode != Sequential {
        WindowPlanSends(ps, 0);
        assert Drop(ps, 0) == ps;
      } else {
        SinglePlanSpec(ps);
      }
    }
  }


  /** A prefix of a trace holds only events of the trace, and keeps the
      pause rule when the trace does. */
  lemma PrefixKeeps(a: seq<Event>, b: seq<Event>)
    requires IsPrefix(a, b)
    ensures forall e :: e in a ==> e in b
    ensures PausesFollowSends(b) ==> PausesFollowSends(a)
  {
    assert forall j :: 0 <= j < |a| ==> a[j] == b[j];
  }

  /** Sequential mode follows the one-by-one plan and every other mode the
      windows of 90: what happens is a prefix of that plan, and all of it
      when the call succeeds. */
  lemma SendLogBatchPlan(mode: Mode, lines: seq<string>, base: int, attrs: Attributes, env: Env, oracle: seq<bool>)
    requires Entries(lines, base, attrs, env).Some?
    ensures var ps := Entries(lines, base, attrs, env).value;
      var run := SendLogBatch(mode, lines, base, attrs, env, oracle).run;
      var plan := if mode == Sequential then SinglePlan(ps) else WindowPlan(ps, 0);
      IsPrefix(run.trace, plan) && (run.ok ==> run.trace == plan)
  {
    var ps := Entries(lines, base, attrs, env).value;
    if |ps| > 0 {
      ExecuteFollowsPlan(Plan(mode, ps), oracle, 0);
    }
  }

  /** What each mode's requests and waits look like. Outside sequential
      mode every request carries 1 to 90 records, none a sleep, and every
      wait is the 50 ms pause right after a request, so no sleep is ever
      waited for. In sequential mode every request carries one record,
      not a sleep, and the waits are the sleeps, in order. */
  lemma SendLogBatchModes(mode: Mode, lines: seq<string>, base: int, attrs: Attributes, env: Env, oracle: seq<bool>)
    requires Entries(lines, base, attrs, env).Some?
    ensures var ps := Entries(lines, base, attrs, env).value;
      var t := SendLogBatch(mode, lines, base, attrs, env, oracle).run.trace;
      mode != Sequential ==>
        && (forall e :: e in t && e.Send? ==> 0 < |e.batch| <= RateLimitPerSecond && SleepFree(e.batch))
        && PausesFollowSends(t)
    ensures var ps := Entries(lines, base, attrs, env).value;
      var t := SendLogBatch(mode, lines, base, attrs, env, oracle).run.trace;
      mode == Sequential ==>
        && (forall e :: e in t && e.Send? ==> |e.batch| == 1 && !HasSleep(e.batch[0]))
        && IsPrefix(Waited(t), Sleeps(ps))
  {
    var ps := Entries(lines, base, attrs, env).value;
    var t := SendLogBatch(mode, lines, base, attrs, env, oracle).run.trace;
    SendLogBatchPlan(mode, lines, base, attrs, env, oracle);
    if mode != Sequential {
      PrefixKeeps(t, WindowPlan(ps, 0));
      WindowPlanBatches(ps, 0);
      WindowPlanPauses(ps, 0);
    } else {
      PrefixKeeps(t, SinglePlan(ps));
      SinglePlanSpec(ps);
      MeasuresOfPrefix(t, SinglePlan(ps));
    }
  }
}

=== FILE: endpoint.dfy ===
/** Normalisation of the user-entered ingest endpoint (`processEndpointUrl`
    in src/ingest.js). */
module Endpoint {
  import opened Wrappers
  import opened Text

  /** The log-ingest path every endpoint must end with. */
  const IngestPath: string := "/api/v2/logs/ingest"

  /** `s.replace(/\/$/, '')`: one trailing slash removed. */
  function DropTrailingSlash(s: string): (r: string)
    ensures s == r || s == r + "/"
  {
    if |s| > 0 && s[|s| - 1] == '/' then s[..|s| - 1] else s
  }

  /** The URL after trimming, dropping one trailing slash and collapsing the
      first `.apps.` to `.`, before the path is checked. */
  function Normalize(url: string): string {
    ReplaceFirst(DropTrailingSlash(Trim(url)), ".apps.", ".")
  }

  /** `url.split('/').slice(0, 3).join('/')`: scheme and host. */
  function SchemeAndHost(url: string): string {
    Join(Take(Split(url, '/'), 3), '/')
  }

  /** `processEndpointUrl`: the result always ends with the ingest path and
      so is never empty. */
  function ProcessEndpointUrl(url: string): (r: string)
    ensures EndsWith(r, IngestPath)
    ensures |r| >= |IngestPath|
  {
    var n := Normalize(url);
    if EndsWith(n, IngestPath) then n
    else
      var r := SchemeAndHost(n) + IngestPath;
      assert r[|r| - |IngestPath|..] == IngestPath;
      r
  }

  /** A normalised URL that already ends with the ingest path is kept; any
      other is cut before its third `/` (leaving `scheme://host`) and gets
      the ingest path appended. */
  lemma ProcessEndpointUrlCases(url: string)
    ensures var n := Normalize(url);
      && (EndsWith(n, IngestPath) ==> ProcessEndpointUrl(url) == n)
      && (!EndsWith(n, IngestPath) ==> ProcessEndpointUrl(url) == BeforeNth(n, '/', 3) + IngestPath)
  {
    JoinTakeSplit(Normalize(url), '/', 3);
  }

  /** Neither end of `s` is white space. */
  predicate TrimmedEdges(s: string) {
    s == [] || (!IsSpace(s[0]) && !IsSpace(s[|s| - 1]))
  }

  lemma TrimOfTrimmed(s: string)
    requires TrimmedEdges(s)
    ensures Trim(s) == s
  {
  }

  /** Replacing the first occurrence keeps the first character, or puts the
      replacement's first character in its place. */
  lemma ReplaceFirstHead(s: string, pat: string, rep: string)
    requires s != [] && rep != []
    ensures var r := ReplaceFirst(s, pat, rep); r != [] && (r[0] == s[0] || r[0] == rep[0])
  {
    match FindFrom(s, pat, 0)
    case None =>
    case Some(j) =>
      var r := s[..j] + rep + s[j + |pat|..];
      if j == 0 { assert r[0] == rep[0]; } else { assert r[0] == s[0]; }
  }

  lemma NormalizeStartsClean(url: string)
    ensures Normalize(url) == [] || !IsSpace(Normalize(url)[0])
  {
    var t := Trim(url);
    TrimEmptyIffBlank(url);
    var d := DropTrailingSlash(t);
    assert d == [] || d[0] == t[0];
    if d != [] {
      ReplaceFirstHead(d, ".apps.", ".");
    }
  }

  /** A processed endpoint neither starts with white space nor ends with a
      slash. */
  lemma ProcessedEdges(url: string)
    ensures var r := ProcessEndpointUrl(url);
      r != [] && !IsSpace(r[0]) && r[|r| - 1] == 't'
  {
    var r := ProcessEndpointUrl(url);
    var n := Normalize(url);
    ProcessEndpointUrlCases(url);
    NormalizeStartsClean(url);
    assert r[|r| - 1] == IngestPath[|IngestPath| - 1];
    if !EndsWith(n, IngestPath) {
      var h := BeforeNth(n, '/', 3);
      if h != [] { assert r[0] == h[0] == n[0]; } else { assert r[0] == '/'; }
    }
  }

  /** Normalising an already normalised endpoint changes nothing, provided it
      holds no further `.apps.` for the replacement to collapse. */
  lemma ProcessEndpointUrlIdempotent(url: string)
    requires forall j :: !OccursAt(ProcessEndpointUrl(url), ".apps.", j)
    ensures ProcessEndpointUrl(ProcessEndpointUrl(url)) == ProcessEndpointUrl(url)
  {
    var r := ProcessEndpointUrl(url);
    ProcessedEdges(url);
    assert DropTrailingSlash(r) == r;
    ReplaceFirstSpec(r, ".apps.", ".");
    NormalizeTrimmed(r);
  }

  /** `.apps.` found at position 1 of `s` is its first occurrence. */
  lemma CollapseAtOne(s: string)
    requires |s| >= 7 && s[0] != '.' && s[1..7] == ".apps."
    ensures ReplaceFirst(s, ".apps.", ".") == s[..1] + "." + s[7..]
  {
    assert s[0..6][0] != ".apps."[0];
    assert FindFrom(s, ".apps.", 0) == FindFrom(s, ".apps.", 1) == Some(1);
  }

  lemma NormalizeTrimmed(s: string)
    requires TrimmedEdges(s)
    ensures Normalize(s) == ReplaceFirst(DropTrailingSlash(s), ".apps.", ".")
  {
    TrimOfTrimmed(s);
  }

  lemma NormalizeFirstPass(u: string)
    requires u == "a.apps.apps.b"
    ensures Normalize(u) == "a.apps.b"
  {
    assert u[..1] + "." + u[7..] == "a.apps.b";
    CollapseAtOne(u);
    assert DropTrailingSlash(u) == u;
    NormalizeTrimmed(u);
  }

  lemma NormalizeSecondPass(v: string)
    requires v == "a.apps.b" + IngestPath
    ensures Normalize(v) == "a.b" + IngestPath
  {
    assert v[..1] + "." + v[7..] == "a.b" + IngestPath;
    CollapseAtOne(v);
    assert DropTrailingSlash(v) == v;
    NormalizeTrimmed(v);
  }

  lemma SchemeAndHostWithoutSlash(n: string)
    requires '/' !in n
    ensures SchemeAndHost(n) == n
  {
    SplitWithout(n, '/');
  }

  lemma FirstPassResult(url: string)
    requires url == "a.apps.apps.b"
    ensures ProcessEndpointUrl(url) == "a.apps.b" + IngestPath
  {
    SchemeAndHostWithoutSlash("a.apps.b");
    NormalizeFirstPass(url);
  }

  lemma SecondPassResult(v: string)
    requires v == "a.apps.b" + IngestPath
    ensures ProcessEndpointUrl(v) == "a.b" + IngestPath
  {
    NormalizeSecondPass(v);
    assert EndsWith("a.b" + IngestPath, IngestPath);
  }

  /** Without that proviso normalisation is not idempotent: for
      `a.apps.apps.b` a second `.apps.` survives the first pass and is
      collapsed by the second. */
  lemma ProcessEndpointUrlNotIdempotent(url: string)
    requires url == "a.apps.apps.b"
    ensures ProcessEndpointUrl(url) == "a.apps.b" + IngestPath
    ensures ProcessEndpointUrl(ProcessEndpointUrl(url)) == "a.b" + IngestPath
  {
    FirstPassResult(url);
    SecondPassResult(ProcessEndpointUrl(url));
  }

  /** An empty or blank endpoint field still yields a non-empty endpoint, so
      the start guard's endpoint test can never fire. */
  lemma BlankEndpointStillNonEmpty(url: string)
    requires IsBlank(url)
    ensures ProcessEndpointUrl(url) == IngestPath
  {
    TrimEmptyIffBlank(url);
    assert Normalize(url) == "";
  }
}

=== FILE: json.dfy ===
/** The JavaScript values that flow through the replay core: what
    `JSON.parse` produces, attribute values, and the fields of a payload.
    Numbers are exact reals: the values only matter here through their
    truthiness and identity. */
module Json {

  datatype Value =
    | Null
    | Bool(b: bool)
    | Num(n: real)
    | Str(s: string)
    | Arr(items: seq<Value>)
    | Obj(fields: map<string, Value>)

  /** JavaScript truthiness: `null`, `false`, `0` and `""` are falsy; arrays
      and objects are always truthy. */
  predicate Truthy(v: Value) {
    match v
    case Null => false
    case Bool(b) => b
    case Num(n) => n != 0.0
    case Str(s) => s != ""
    case Arr(_) => true
    case Obj(_) => true
  }

  /** What `JSON.parse(text)` does: it throws (`NotJson`) or yields a value. */
  datatype Parsed = NotJson | Parsed(value: Value)

  /** The JSON parser, an oracle of the model. */
  type Parser = string -> Parsed
}

=== FILE: payload.dfy ===
/** Turning one log line into the object sent for it (`buildPayload` in
    src/ingest.js), and recognising the `[[[SLEEP n]]]` directive. */
module Payload {
  import opened Wrappers
  import opened Text
  import opened Json

  /** The object built for a line. A `Record` is a parsed JSON object or the
      `{content, timestamp}` wrapper. A `List` is a parsed JSON array: the
      attributes and timestamp assigned to it become array properties that
      `JSON.stringify` leaves out, so only `items` are sent. */
  datatype Payload =
    | Record(fields: map<string, Value>)
    | List(items: seq<Value>, fields: map<string, Value>)

  /** The user-selected static attributes, as a finished key-value map. */
  type Attributes = map<string, Value>

  const TimestampKey: string := "timestamp"
  const ContentKey: string := "content"
  const SleepKey: string := "sleep"

  /** The outcome of building a line: no payload (`null`), a payload, or a
      thrown exception. */
  datatype Build = Skip | Built(payload: Payload) | Throws

  /** The payload's `sleep` property is truthy. */
  predicate HasSleep(p: Payload) {
    SleepKey in p.fields && Truthy(p.fields[SleepKey])
  }

  // ---------------------------------------------------------------------
  // The sleep directive: /^\[\[\[SLEEP\s+(\d+)\]\]\]$/

  const SleepOpen: string := "[[[SLEEP"
  const SleepClose: string := "]]]"

  /** `\d`: an ASCII decimal digit. */
  predicate IsDigit(c: char) {
    '0' <= c <= '9'
  }

  predicate AllDigits(s: string) {
    forall i :: 0 <= i < |s| ==> IsDigit(s[i])
  }

  /** The number of leading white-space characters. */
  function LeadingSpaces(s: string): (k: nat)
    ensures k <= |s| && IsBlank(s[..k])
    ensures k < |s| ==> !IsSpace(s[k])
  {
    if |s| > 0 && IsSpace(s[0]) then
      var k := 1 + LeadingSpaces(s[1..]);
      assert s[..k] == [s[0]] + s[1..][..k - 1];
      k
    else 0
  }

  lemma {:induction false} LeadingSpacesOfBlank(w: string, d: string)
    requires IsBlank(w) && (d == [] || !IsSpace(d[0]))
    ensures LeadingSpaces(w + d) == |w|
  {
    if |w| > 0 {
      assert (w + d)[1..] == w[1..] + d;
      LeadingSpacesOfBlank(w[1..], d);
    }
  }

  /** The directive as a pattern: the opening `[[[SLEEP`, one or more white
      space characters ending at `k`, one or more digits, and `]]]`. */
  ghost predicate IsSleepDirective(s: string) {
    && |s| >= |SleepOpen| + |SleepClose|
    && s[..|SleepOpen|] == SleepOpen
    && s[|s| - |SleepClose|..] == SleepClose
    && exists k :: |SleepOpen| < k < |s| - |SleepClose|
         && IsBlank(s[|SleepOpen|..k]) && AllDigits(s[k..|s| - |SleepClose|])
  }

  /** The digit group the directive pattern captures, if `s` matches it. */
  function SleepDigits(s: string): Option<string> {
    if |s| < |SleepOpen| + |SleepClose| then None
    else if s[..|SleepOpen|] != SleepOpen || s[|s| - |SleepClose|..] != SleepClose then None
    else
      var mid := s[|SleepOpen|..|s| - |SleepClose|];
      var k := LeadingSpaces(mid);
      if k == 0 || k == |mid| || !AllDigits(mid[k..]) then None
      else Some(mid[k..])
  }

  /** Every directive is recognised. */
  lemma SleepDigitsComplete(s: string)
    requires IsSleepDirective(s)
    ensures SleepDigits(s).Some?
  {
    var o, c := |SleepOpen|, |SleepClose|;
    var mid := s[o..|s| - c];
    var k :| o < k < |s| - c && IsBlank(s[o..k]) && AllDigits(s[k..|s| - c]);
    assert mid == s[o..k] + s[k..|s| - c];
    assert !IsSpace(s[k..|s| - c][0]);
    LeadingSpacesOfBlank(s[o..k], s[k..|s| - c]);
    assert mid[k - o..] == s[k..|s| - c];
  }

  /** Whatever is recognised is a directive, and the capture is the
      non-empty digit run before `]]]`. */
  lemma SleepDigitsSound(s: string)
    requires SleepDigits(s).Some?
    ensures IsSleepDirective(s)
    ensures |SleepDigits(s).value| > 0 && AllDigits(SleepDigits(s).value)
  {
    var o, c := |SleepOpen|, |SleepClose|;
    var mid := s[o..|s| - c];
    var m := LeadingSpaces(mid);
    assert s[o..o + m] == mid[..m];
    assert s[o + m..|s| - c] == mid[m..];
  }

  /** The recogniser matches exactly the directive pattern, and what it
      captures is the non-empty digit run before `]]]`. */
  lemma SleepDigitsSpec(s: string)
    ensures SleepDigits(s).Some? <==> IsSleepDirective(s)
    ensures SleepDigits(s).Some? ==> |SleepDigits(s).value| > 0 && AllDigits(SleepDigits(s).value)
  {
    if IsSleepDirective(s) { SleepDigitsComplete(s); }
    if SleepDigits(s).Some? { SleepDigitsSound(s); }
  }

  /** `parseInt(digits, 10)`. */
  function DigitsValue(d: string): nat
    requires AllDigits(d)
  {
    if |d| == 0 then 0
    else DigitsValue(d[..|d| - 1]) * 10 + (d[|d| - 1] as int - '0' as int)
  }

  /** The sleep duration of a directive, in milliseconds. */
  function SleepMillis(s: string): (r: Option<nat>)
    ensures r.Some? <==> SleepDigits(s).Some?
  {
    match SleepDigits(s)
    case None => None
    case Some(d) =>
      SleepDigitsSpec(s);
      Some(DigitsValue(d))
  }

  // ---------------------------------------------------------------------
  // Payload building

  /** Copies every attribute except `timestamp` onto `base`, then sets
      `timestamp` to the existing truthy value or else to `ts`. */
  function Merge(base: map<string, Value>, attrs: Attributes, ts: Value): (r: map<string, Value>)
    ensures r.Keys == base.Keys + (attrs.Keys - {TimestampKey}) + {TimestampKey}
    ensures forall k :: k in attrs && k != TimestampKey ==> r[k] == attrs[k]
    ensures forall k :: k in base && k !in attrs && k != TimestampKey ==> r[k] == base[k]
    ensures TimestampKey in base && Truthy(base[TimestampKey]) ==> r[TimestampKey] == base[TimestampKey]
    ensures !(TimestampKey in base && Truthy(base[TimestampKey])) ==> r[TimestampKey] == ts
  {
    var withAttrs := base + (attrs - {TimestampKey});
    if TimestampKey in withAttrs && Truthy(withAttrs[TimestampKey]) then withAttrs
    else withAttrs[TimestampKey := ts]
  }

  /** `buildPayload(line, selectedAttributes, timestamp)`, where `parsed` is
      what `JSON.parse(line)` does. Setting a property on a parsed `null`,
      number, string or boolean throws in strict-mode code. */
  function BuildPayload(line: string, attrs: Attributes, ts: Value, parsed: Parsed): Build {
    var t := Trim(line);
    if t == "" then Skip
    else if SleepDigits(t).Some? then Skip
    else FromParsed(line, attrs, ts, parsed)
  }

  /** The payload of a line that is neither blank nor a sleep directive. */
  function FromParsed(line: string, attrs: Attributes, ts: Value, parsed: Parsed): Build {
    match parsed
    case NotJson => Built(Record(Merge(map[ContentKey := Str(line), TimestampKey := ts], attrs, ts)))
    case Parsed(Obj(f)) => Built(Record(Merge(f, attrs, ts)))
    case Parsed(Arr(xs)) => Built(List(xs, Merge(map[], attrs, ts)))
    case Parsed(_) => Throws
  }

  /** No payload exactly for blank lines and sleep directives. */
  lemma BuildPayloadSkips(line: string, attrs: Attributes, ts: Value, parsed: Parsed)
    ensures BuildPayload(line, attrs, ts, parsed) == Skip <==> IsBlank(line) || IsSleepDirective(Trim(line))
  {
    TrimEmptyIffBlank(line);
    SleepDigitsSpec(Trim(line));
  }

  /** Any other line is built from what it parses to. */
  lemma BuildUnskipped(line: string, attrs: Attributes, ts: Value, parsed: Parsed)
    requires !IsBlank(line) && !IsSleepDirective(Trim(line))
    ensures BuildPayload(line, attrs, ts, parsed) == FromParsed(line, attrs, ts, parsed)
  {
    TrimEmptyIffBlank(line);
    SleepDigitsSpec(Trim(line));
  }

  /** Only a JSON scalar throws. */
  lemma FromParsedThrows(line: string, attrs: Attributes, ts: Value, parsed: Parsed)
    ensures FromParsed(line, attrs, ts, parsed) == Throws <==> parsed.Parsed? && !parsed.value.Obj? && !parsed.value.Arr?
  {
  }

  /** A line throws exactly when it is neither blank nor a sleep directive
      and parses to a JSON scalar. */
  lemma BuildPayloadThrows(line: string, attrs: Attributes, ts: Value, parsed: Parsed)
    ensures BuildPayload(line, attrs, ts, parsed) == Throws <==>
      !IsBlank(line) && !IsSleepDirective(Trim(line))
      && parsed.Parsed? && !parsed.value.Obj? && !parsed.value.Arr?
  {
    BuildPayloadSkips(line, attrs, ts, parsed);
    if !IsBlank(line) && !IsSleepDirective(Trim(line)) {
      BuildUnskipped(line, attrs, ts, parsed);
      FromParsedThrows(line, attrs, ts, parsed);
    }
  }

  /** A line that is not JSON becomes `{content: line, timestamp: ts}` with
      the attributes laid over it: an attribute named `content` replaces the
      line text, and `timestamp` is always the supplied one. */
  lemma BuildPlainLine(line: string, attrs: Attributes, ts: Value)
    requires !IsBlank(line) && !IsSleepDirective(Trim(line))
    ensures BuildPayload(line, attrs, ts, NotJson) == FromParsed(line, attrs, ts, NotJson)
    ensures PlainFields(FromParsed(line, attrs, ts, NotJson), line, attrs, ts)
  {
    BuildUnskipped(line, attrs, ts, NotJson);
    PlainLineFields(line, attrs, ts);
  }

  /** The payload fields `BuildPlainLine` describes. */
  predicate PlainFields(b: Build, line: string, attrs: Attributes, ts: Value) {
    && b.Built? && b.payload.Record?
    && b.payload.fields.Keys == {ContentKey, TimestampKey} + attrs.Keys
    && b.payload.fields[ContentKey] == (if ContentKey in attrs then attrs[ContentKey] else Str(line))
    && b.payload.fields[TimestampKey] == ts
    && forall k :: k in attrs && k != TimestampKey ==> b.payload.fields[k] == attrs[k]
  }

  /** The fields of a line that is not JSON. */
  lemma PlainLineFields(line: string, attrs: Attributes, ts: Value)
    ensures PlainFields(FromParsed(line, attrs, ts, NotJson), line, attrs, ts)
  {
    var base := map[ContentKey := Str(line), TimestampKey := ts];
    assert base.Keys == {ContentKey, TimestampKey};
    assert TimestampKey in base && base[TimestampKey] == ts;
  }

  /** A JSON object keeps its own truthy `timestamp`; every other attribute
      overwrites the field of the same name. */
  lemma BuildObjectLine(line: string, attrs: Attributes, ts: Value, f: map<string, Value>)
    requires !IsBlank(line) && !IsSleepDirective(Trim(line))
    ensures BuildPayload(line, attrs, ts, Parsed(Obj(f))) == FromParsed(line, attrs, ts, Parsed(Obj(f)))
    ensures var b := FromParsed(line, attrs, ts, Parsed(Obj(f)));
      && b.Built? && b.payload.Record?
      && b.payload.fields[TimestampKey] ==
           (if TimestampKey in f && Truthy(f[TimestampKey]) then f[TimestampKey] else ts)
      && (forall k :: k in attrs && k != TimestampKey ==> b.payload.fields[k] == attrs[k])
      && (forall k :: k in f && k !in attrs ==> b.payload.fields[k] == f[k] || k == TimestampKey)
  {
    BuildUnskipped(line, attrs, ts, Parsed(Obj(f)));
  }
}

=== FILE: replay.dfy ===
/** The replay session of the main page (src/main.js): loading a file,
    the start button with its guard and defaults, the interval tick of
    sequential mode, and the stop, loop and randomize buttons. The DOM, the
    status log and the timers are not modelled: a tick is one call of the
    interval callback, run to completion, and what the page would read from
    its widgets arrives as a `Form`. */
module Replay {
  import opened Wrappers
  import opened Json
  import opened Text
  import opened Timestamp
  import Endpoint
  import Payload
  import Batch

  /** The delay used when the delay field is empty, zero or not a number. */
  const DefaultDelayMs: int := 1000

  /** The volume used when the volume field is empty, zero or not a number. */
  const DefaultVolume: int := 1

  // ---------------------------------------------------------------------
  // Loading a file

  /** One trailing carriage return removed, if there is one. */
  function DropCR(s: string): (r: string)
    ensures s == r || s == r + ['\r']
    ensures |r| == |s| || (|s| > 0 && s[|s| - 1] == '\r')
  {
    if |s| > 0 && s[|s| - 1] == '\r' then s[..|s| - 1] else s
  }

  /** `text.split(/\r?\n/)`: the pieces between newlines, each but the last
      without the carriage return that preceded its newline; a carriage
      return at the very end of the text stays in the last piece. */
  function Pieces(text: string): (r: seq<string>)
    ensures |r| == |Split(text, '\n')|
    ensures forall i :: 0 <= i < |r| ==> '\n' !in r[i]
    ensures r[|r| - 1] == Split(text, '\n')[|r| - 1]
    ensures forall i :: 0 <= i < |r| - 1 ==>
      Split(text, '\n')[i] == (if |r[i]| < |Split(text, '\n')[i]| then r[i] + ['\r'] else r[i])
  {
    var parts := Split(text, '\n');
    seq(|parts|, i requires 0 <= i < |parts| => if i < |parts| - 1 then DropCR(parts[i]) else parts[i])
  }

  /** `xs.filter(keep)`. */
  function Filter<T>(xs: seq<T>, keep: T -> bool): (r: seq<T>)
    ensures |r| <= |xs|
  {
    if |xs| == 0 then []
    else (if keep(xs[0]) then [xs[0]] else []) + Filter(xs[1..], keep)
  }

  /** Filtering a concatenation filters each part. */
  lemma {:induction false} FilterAppend<T>(a: seq<T>, b: seq<T>, keep: T -> bool)
    ensures Filter(a + b, keep) == Filter(a, keep) + Filter(b, keep)
  {
    if |a| == 0 {
      assert a + b == b;
    } else {
      var h := if keep(a[0]) then [a[0]] else [];
      assert (a + b)[0] == a[0];
      assert (a + b)[1..] == a[1..] + b;
      assert Filter(a + b, keep) == h + Filter(a[1..] + b, keep);
      FilterAppend(a[1..], b, keep);
      assert h + (Filter(a[1..], keep) + Filter(b, keep)) == (h + Filter(a[1..], keep)) + Filter(b, keep);
    }
  }

  /** The test of `line => line.trim() !== ''`. */
  predicate Kept(line: string) {
    Trim(line) != ""
  }

  /** `.filter(line => line.trim() !== '')`. */
  function NonBlank(xs: seq<string>): (r: seq<string>)
    ensures |r| <= |xs|
  {
    Filter(xs, Kept)
  }

  /** Every kept line is one of the inputs and is not blank. */
  lemma {:induction false} NonBlankSound(xs: seq<string>)
    ensures forall l :: l in NonBlank(xs) ==> l in xs && !IsBlank(l)
  {
    if |xs| > 0 {
      NonBlankSound(xs[1..]);
      TrimEmptyIffBlank(xs[0]);
      assert forall l :: l in xs[1..] ==> l in xs;
    }
  }

  /** No line is dropped that is not blank. */
  lemma {:induction false} NonBlankKeepsAll(xs: seq<string>)
    requires forall i :: 0 <= i < |xs| ==> !IsBlank(xs[i])
    ensures NonBlank(xs) == xs
  {
    if |xs| > 0 {
      TrimEmptyIffBlank(xs[0]);
      NonBlankKeepsAll(xs[1..]);
      assert xs == [xs[0]] + xs[1..];
    }
  }

  /** The filter keeps a single line exactly when it is not blank. */
  lemma NonBlankSingle(x: string)
    ensures NonBlank([x]) == if IsBlank(x) then [] else [x]
  {
    TrimEmptyIffBlank(x);
    assert [x][1..] == [];
  }

  /** The filter works line by line: filtering a concatenation filters
      each part, so a blank line drops only itself. */
  lemma NonBlankAppend(a: seq<string>, b: seq<string>)
    ensures NonBlank(a + b) == NonBlank(a) + NonBlank(b)
  {
    FilterAppend(a, b, Kept);
  }

  /** The lines of an uploaded file. */
  function LoadLines(text: string): seq<string> {
    NonBlank(Pieces(text))
  }

  /** No loaded line is blank or holds a newline. */
  lemma LoadedLinesClean(text: string)
    ensures forall l :: l in LoadLines(text) ==> !IsBlank(l) && '\n' !in l
  {
    NonBlankSound(Pieces(text));
  }

  /** Loading a file written as non-blank lines joined by newlines gives
      back exactly those lines. */
  lemma LoadJoinedLines(lines: seq<string>)
    requires |lines| >= 1
    requires forall i :: 0 <= i < |lines| ==> !IsBlank(lines[i]) && '\n' !in lines[i]
    requires forall i :: 0 <= i < |lines| ==> DropCR(lines[i]) == lines[i]
    ensures LoadLines(Join(lines, '\n')) == lines
  {
    PiecesOfJoin(lines);
    NonBlankKeepsAll(lines);
  }

  lemma PiecesOfJoin(lines: seq<string>)
    requires |lines| >= 1
    requires forall i :: 0 <= i < |lines| ==> '\n' !in lines[i] && DropCR(lines[i]) == lines[i]
    ensures Pieces(Join(lines, '\n')) == lines
  {
    SplitJoin(lines, '\n');
  }

  // ---------------------------------------------------------------------
  // Session state and the start button

  /** What the start button reads from the page. `None` stands for a field
      that `parseInt` turns into NaN. */
  datatype Form = Form(
    endpoint: string,
    token: string,
    delay: Option<int>,
    volume: Option<int>,
    mode: Mode,
    time: TimeOptions)

  /** What the start button captures for the run. */
  datatype Settings = Settings(
    endpoint: string,
    token: string,
    baseDelay: int,
    baseVolume: int,
    mode: Mode,
    time: TimeOptions)

  /** The page's session variables: the loaded lines, the current line
      index, the loop and randomize flags, and whether the interval runs. */
  datatype Session = Session(
    lines: seq<string>,
    index: int,
    loop: bool,
    randomize: bool,
    ticking: bool)

  /** What the page cannot decide itself: `JSON.parse`, `Date` parsing, the
      clock, the random draws of the timestamp synthesiser for each absolute
      line index, and ISO formatting of a valid instant. */
  datatype World = World(
    json: Json.Parser,
    parse: DateParser,
    now: int,
    draws: int -> Draws,
    format: int -> string)

  /** `toISOString()`, which throws a RangeError for an invalid date and
      otherwise depends only on the instant. */
  function Iso(st: Stamp, format: int -> string): (r: Option<string>)
    ensures r.None? <==> st.RangeError?
    ensures r.Some? ==> r.value == format(st.ms)
  {
    if st.RangeError? then None else Some(format(st.ms))
  }

  /** The timestamp of the line at absolute index `k`, for a file of `n`
      lines. */
  function EnvFor(st: Settings, n: int, w: World): Batch.Env {
    Batch.Env(w.json, k => Iso(GetCurrentTimestamp(st.mode, k, n, st.time, w.parse, w.now, w.draws(k)), w.format))
  }

  /** The values the start button computes from the form. */
  function ReadForm(f: Form): (r: Settings)
    ensures EndsWith(r.endpoint, Endpoint.IngestPath)
    ensures r.token == Trim(f.token)
    ensures (f.delay.None? || f.delay == Some(0)) ==> r.baseDelay == DefaultDelayMs
    ensures (f.volume.None? || f.volume == Some(0)) ==> r.baseVolume == DefaultVolume
    ensures f.delay.Some? && f.delay.value != 0 ==> r.baseDelay == f.delay.value
    ensures f.volume.Some? && f.volume.value != 0 ==> r.baseVolume == f.volume.value
    ensures r.baseDelay != 0 && r.baseVolume != 0
  {
    Settings(
      Endpoint.ProcessEndpointUrl(Trim(f.endpoint)),
      Trim(f.token),
      IntOr(f.delay, DefaultDelayMs),
      IntOr(f.volume, DefaultVolume),
      f.mode,
      f.time)
  }

  /** `!endpoint || !token || logLines.length === 0` is false. */
  predicate Admits(st: Settings, s: Session) {
    st.endpoint != "" && st.token != "" && |s.lines| > 0
  }

  /** What pressing start leads to: an alert and nothing else, a running
      interval, or (historic and scattered modes) one pass over the whole
      file with the result of that call. */
  datatype Started =
    | Refused
    | Ticking(session: Session, settings: Settings)
    | Passed(session: Session, settings: Settings, result: Batch.Completion)

  /** The start button. The guard tests the processed endpoint, the trimmed
      token and the loaded lines. Scattered mode switches randomize on.
      The index is reset to 0, but the options object handed to the
      one-pass call was filled in before the reset, so that call numbers
      the lines from the previous run's index. */
  function Start(s: Session, f: Form, attrs: Payload.Attributes, w: World, oracle: seq<bool>): (r: Started)
    ensures r.Refused? <==> !Admits(ReadForm(f), s)
    ensures r.Ticking? <==> !r.Refused? && f.mode == Sequential
    ensures !r.Refused? ==> r.session.index == 0 && r.session.lines == s.lines && r.session.loop == s.loop
    ensures !r.Refused? ==> r.session.randomize == (s.randomize || f.mode == Scattered)
    ensures !r.Refused? ==> (r.session.ticking <==> f.mode == Sequential)
    ensures !r.Refused? ==> r.settings == ReadForm(f)
  {
    var st := ReadForm(f);
    if !Admits(st, s) then Refused
    else
      var randomize := s.randomize || st.mode == Scattered;
      var stale := s.index;
      if st.mode == Sequential then
        Ticking(s.(randomize := randomize, index := 0, ticking := true), st)
      else
        var result := Batch.SendLogBatch(st.mode, s.lines, stale, attrs, EnvFor(st, |s.lines|, w), oracle);
        Passed(s.(randomize := randomize, index := 0, ticking := false), st, result)
  }

  /** The endpoint test of the guard never fires, since a processed
      endpoint is never empty: start is refused exactly when the token is
      blank or no lines are loaded. */
  lemma StartGuard(s: Session, f: Form, attrs: Payload.Attributes, w: World, oracle: seq<bool>)
    ensures ReadForm(f).endpoint != ""
    ensures Start(s, f, attrs, w, oracle).Refused? <==> IsBlank(f.token) || |s.lines| == 0
  {
    var st := ReadForm(f);
    assert |st.endpoint| >= |Endpoint.IngestPath|;
    assert st.token == "" <==> IsBlank(f.token) by {
      TrimEmptyIffBlank(f.token);
    }
  }

  /** The one-pass call numbers the lines from the index the previous run
      left behind, not from 0. */
  lemma PassUsesStaleIndex(s: Session, f: Form, attrs: Payload.Attributes, w: World, oracle: seq<bool>)
    requires f.mode != Sequential
    requires Start(s, f, attrs, w, oracle).Passed?
    ensures Start(s, f, attrs, w, oracle).result ==
      Batch.SendLogBatch(f.mode, s.lines, s.index, attrs, EnvFor(ReadForm(f), |s.lines|, w), oracle)
  {
  }

  // ---------------------------------------------------------------------
  // The interval tick

  /** `Array.prototype.slice` position: a negative position counts from the
      end, and the result is clamped to [0, len]. */
  function SlicePos(i: int, len: nat): (r: nat)
    ensures r <= len
    ensures 0 <= i <= len ==> r == i
    ensures i > len ==> r == len
    ensures i < 0 ==> r == if len + i < 0 then 0 else len + i
  {
    if i < 0 then (if len + i < 0 then 0 else len + i) else if i > len then len else i
  }

  /** `xs.slice(from, to)`. */
  function Slice<T>(xs: seq<T>, from: int, to: int): (r: seq<T>)
    ensures 0 <= from <= |xs| && from <= to ==>
      r == xs[from..if to <= |xs| then to else |xs|]
    ensures |r| <= |xs|
  {
    var a := SlicePos(from, |xs|);
    var b := SlicePos(to, |xs|);
    if a < b then xs[a..b] else []
  }

  /** The two `Math.random` draws of a tick: the delay's and the volume's. */
  datatype TickDraws = TickDraws(delay: real, volume: real)

  /** What one tick does: either the session completes and the interval is
      cleared, or a batch is sent; `delay` is only written to the status
      log, the interval keeps its period. */
  datatype TickResult =
    | Completed(session: Session)
    | Sent(session: Session, batch: seq<string>, delay: int, volume: int, result: Batch.Completion)

  /** The delay and volume of a tick: drawn when randomize is on. */
  function TickDelay(s: Session, st: Settings, d: TickDraws): int {
    if s.randomize then RandomInt(d.delay, 0, st.baseDelay) else st.baseDelay
  }

  function TickVolume(s: Session, st: Settings, d: TickDraws): int {
    if s.randomize then RandomInt(d.volume, 1, st.baseVolume) else st.baseVolume
  }

  /** One call of the interval callback. At the end of the lines it either
      starts over (loop on) or completes without sending. It then sends
      `lines.slice(index, index + volume)`, the lines numbered from
      `index`, and adds `volume` to the index, whatever the batch's length
      and whether the send succeeded; only a call that throws leaves the
      index where it was. */
  function Tick(s: Session, st: Settings, attrs: Payload.Attributes, w: World, oracle: seq<bool>, d: TickDraws): (r: TickResult)
    requires s.ticking
    ensures r.session.lines == s.lines && r.session.loop == s.loop && r.session.randomize == s.randomize
    ensures r.Completed? <==> s.index >= |s.lines| && !s.loop
    ensures r.Completed? ==> !r.session.ticking && r.session.index == s.index
    ensures r.Sent? ==> r.session.ticking
  {
    if s.index >= |s.lines| && !s.loop then Completed(s.(ticking := false))
    else
      var from := if s.index >= |s.lines| then 0 else s.index;
      var volume := TickVolume(s, st, d);
      var batch := Slice(s.lines, from, from + volume);
      var result := Batch.SendLogBatch(st.mode, batch, from, attrs, EnvFor(st, |s.lines|, w), oracle);
      var next := if result.Rejected? then from else from + volume;
      Sent(s.(index := next), batch, TickDelay(s, st, d), volume, result)
  }

  /** A sending tick starts from the current index, or from 0 when the loop
      wrapped around; the batch is the next `volume` lines, cut at the end
      of the file; the index then moves on by `volume`, unless the send
      threw. */
  lemma TickSends(s: Session, st: Settings, attrs: Payload.Attributes, w: World, oracle: seq<bool>, d: TickDraws)
    requires s.ticking && Tick(s, st, attrs, w, oracle, d).Sent?
    requires 0 <= s.index
    ensures var r := Tick(s, st, attrs, w, oracle, d);
      var from := if s.index >= |s.lines| then 0 else s.index;
      && (r.volume >= 0 ==> r.batch == s.lines[from..if from + r.volume <= |s.lines| then from + r.volume else |s.lines|])
      && (r.result.Rejected? ==> r.session.index == from)
      && (r.result.Returned? ==> r.session.index == from + r.volume)
      && (s.index >= |s.lines| ==> s.loop)
      && r.result == Batch.SendLogBatch(st.mode, r.batch, from, attrs, EnvFor(st, |s.lines|, w), oracle)
  {
  }

  /** With a positive base volume the volume of every tick lies in [1,
      base]; with a non-negative base delay the logged delay lies in [0,
      base]. */
  lemma TickDrawRanges(s: Session, st: Settings, d: TickDraws)
    requires 0.0 <= d.delay < 1.0 && 0.0 <= d.volume < 1.0
    ensures st.baseVolume >= 1 ==> 1 <= TickVolume(s, st, d) <= st.baseVolume
    ensures st.baseDelay >= 0 ==> 0 <= TickDelay(s, st, d) <= st.baseDelay
  {
    RandomIntRange(d.volume, 1, st.baseVolume);
    RandomIntRange(d.delay, 0, st.baseDelay);
  }

  /** Progress: with a positive base volume a tick that sends from inside
      the file moves the index forward by between 1 and the base volume,
      unless the send threw; so the distance to the end shrinks and, with
      the loop off, the session completes. */
  lemma TickProgress(s: Session, st: Settings, attrs: Payload.Attributes, w: World, oracle: seq<bool>, d: TickDraws)
    requires s.ticking && 0 <= s.index < |s.lines|
    requires st.baseVolume >= 1
    requires 0.0 <= d.delay < 1.0 && 0.0 <= d.volume < 1.0
    ensures var r := Tick(s, st, attrs, w, oracle, d);
      && r.Sent?
      && (r.result.Returned? ==> s.index < r.session.index <= s.index + st.baseVolume)
      && (r.result.Rejected? ==> r.session.index == s.index)
  {
    TickDrawRanges(s, st, d);
  }

  // ---------------------------------------------------------------------
  // Buttons

  /** The stop button: the interval is cleared and the loop switched off. */
  function Stop(s: Session): (r: Session)
    ensures !r.ticking && !r.loop
    ensures r.lines == s.lines && r.index == s.index && r.randomize == s.randomize
  {
    s.(ticking := false, loop := false)
  }

  /** The loop button. */
  function ToggleLoop(s: Session): (r: Session)
    ensures r.loop != s.loop && r.(loop := s.loop) == s
  {
    s.(loop := !s.loop)
  }

  /** The randomize button. */
  function ToggleRandomize(s: Session): (r: Session)
    ensures r.randomize != s.randomize && r.(randomize := s.randomize) == s
  {
    s.(randomize := !s.randomize)
  }

  /** Loading a file replaces the lines and nothing else; a running session
      keeps its index. */
  function Load(s: Session, text: string): (r: Session)
    ensures r.(lines := s.lines) == s
    ensures forall l :: l in r.lines ==> !IsBlank(l)
  {
    LoadedLinesClean(text);
    s.(lines := LoadLines(text))
  }

  /** Stopping twice is stopping once, and both toggles undo themselves. */
  lemma ButtonsAlgebra(s: Session)
    ensures Stop(Stop(s)) == Stop(s)
    ensures ToggleLoop(ToggleLoop(s)) == s
    ensures ToggleRandomize(ToggleRandomize(s)) == s
  {
  }
}

=== FILE: text.dfy ===
/** String primitives the replay core relies on, with the exact semantics of
    the JavaScript built-ins it calls: `trim`, `endsWith`, `replace` with a
    string pattern, `split` on one character and `join`. Strings are
    sequences of Unicode scalar values. */
module Text {
  import opened Wrappers

  /** The white space and line terminators that `String.prototype.trim` strips
      and that the regular-expression class `\s` matches (ECMAScript
      WhiteSpace and LineTerminator productions). */
  predicate IsSpace(c: char) {
    || c == '\t' || c == '\n' || c == '\U{B}' || c == '\U{C}' || c == '\r'
    || c == ' ' || c == '\U{A0}' || c == '\U{1680}'
    || ('\U{2000}' <= c <= '\U{200A}')
    || c == '\U{2028}' || c == '\U{2029}' || c == '\U{202F}' || c == '\U{205F}'
    || c == '\U{3000}' || c == '\U{FEFF}'
  }

  /** Every character is white space (this includes the empty string). */
  predicate IsBlank(s: string) {
    forall i :: 0 <= i < |s| ==> IsSpace(s[i])
  }

  /** Leading white space removed: what is kept is a suffix that does not
      start with white space. */
  function TrimStart(s: string): (r: string)
    ensures |r| <= |s| && r == s[|s| - |r|..]
    ensures r == [] || !IsSpace(r[0])
  {
    if |s| > 0 && IsSpace(s[0]) then
      var r := TrimStart(s[1..]);
      assert s[1..][|s| - 1 - |r|..] == s[|s| - |r|..];
      r
    else s
  }

  /** What `TrimStart` drops is blank. */
  lemma {:induction false} TrimStartDropsBlank(s: string)
    ensures IsBlank(s[..|s| - |TrimStart(s)|])
  {
    if |s| > 0 && IsSpace(s[0]) {
      var r := TrimStart(s[1..]);
      TrimStartDropsBlank(s[1..]);
      assert s[..|s| - |r|] == [s[0]] + s[1..][..|s| - 1 - |r|];
    }
  }

  /** Trailing white space removed: what is kept is a prefix that does not
      end with white space. */
  function TrimEnd(s: string): (r: string)
    ensures |r| <= |s| && r == s[..|r|]
    ensures r == [] || !IsSpace(r[|r| - 1])
  {
    if |s| > 0 && IsSpace(s[|s| - 1]) then TrimEnd(s[..|s| - 1]) else s
  }

  /** What `TrimEnd` drops is blank. */
  lemma {:induction false} TrimEndDropsBlank(s: string)
    ensures IsBlank(s[|TrimEnd(s)|..])
  {
    if |s| > 0 && IsSpace(s[|s| - 1]) {
      var r := TrimEnd(s[..|s| - 1]);
      TrimEndDropsBlank(s[..|s| - 1]);
      assert s[|r|..] == s[..|s| - 1][|r|..] + [s[|s| - 1]];
    }
  }

  /** `String.prototype.trim`. */
  function Trim(s: string): string {
    TrimEnd(TrimStart(s))
  }

  /** Trimming yields the empty string exactly for blank strings, and otherwise
      a string that neither starts nor ends with white space. */
  lemma TrimEmptyIffBlank(s: string)
    ensures Trim(s) == [] <==> IsBlank(s)
    ensures Trim(s) != [] ==> !IsSpace(Trim(s)[0]) && !IsSpace(Trim(s)[|Trim(s)| - 1])
  {
    var t := TrimStart(s);
    TrimStartDropsBlank(s);
    TrimEndDropsBlank(t);
    if t != [] {
      assert s[|s| - |t|] == t[0];
    }
  }

  /** `s.endsWith(suffix)`. */
  predicate EndsWith(s: string, suffix: string) {
    |suffix| <= |s| && s[|s| - |suffix|..] == suffix
  }

  /** `pat` occurs in `s` starting at position `j`. */
  predicate OccursAt(s: string, pat: string, j: int) {
    0 <= j && j + |pat| <= |s| && s[j..j + |pat|] == pat
  }

  /** The first position at or after `from` where `pat` occurs. */
  function FindFrom(s: string, pat: string, from: nat): (r: Option<nat>)
    ensures r.Some? ==> from <= r.value && OccursAt(s, pat, r.value)
    ensures r.Some? ==> forall j :: from <= j < r.value ==> !OccursAt(s, pat, j)
    ensures r.None? ==> forall j :: from <= j ==> !OccursAt(s, pat, j)
    decreases |s| - from
  {
    if from + |pat| > |s| then None
    else if s[from..from + |pat|] == pat then Some(from)
    else FindFrom(s, pat, from + 1)
  }

  /** `s.replace(pat, rep)` with a string pattern: only the first occurrence
      is replaced. */
  function ReplaceFirst(s: string, pat: string, rep: string): string {
    match FindFrom(s, pat, 0)
    case None => s
    case Some(j) => s[..j] + rep + s[j + |pat|..]
  }

  /** Without an occurrence the string is unchanged; otherwise exactly the
      leftmost occurrence is replaced. */
  lemma ReplaceFirstSpec(s: string, pat: string, rep: string)
    ensures (forall j :: !OccursAt(s, pat, j)) ==> ReplaceFirst(s, pat, rep) == s
    ensures forall j :: OccursAt(s, pat, j) && (forall k :: 0 <= k < j ==> !OccursAt(s, pat, k))
                        ==> ReplaceFirst(s, pat, rep) == s[..j] + rep + s[j + |pat|..]
  {
    match FindFrom(s, pat, 0)
    case None =>
    case Some(i) =>
      forall j | OccursAt(s, pat, j) && (forall k :: 0 <= k < j ==> !OccursAt(s, pat, k))
        ensures ReplaceFirst(s, pat, rep) == s[..j] + rep + s[j + |pat|..]
      {
        assert !(j < i);
        assert !(i < j);
      }
  }

  /** The pieces of `s` between occurrences of `c`, as `s.split(c)` returns
      them: empty pieces are kept, so there is always at least one. */
  function Split(s: string, c: char): (r: seq<string>)
    ensures |r| >= 1
    ensures forall i :: 0 <= i < |r| ==> c !in r[i]
  {
    if |s| == 0 then [""]
    else
      var rest := Split(s[1..], c);
      if s[0] == c then [""] + rest else [[s[0]] + rest[0]] + rest[1..]
  }

  /** `parts.join(c)`. */
  function Join(parts: seq<string>, c: char): string {
    if |parts| == 0 then ""
    else if |parts| == 1 then parts[0]
    else parts[0] + [c] + Join(parts[1..], c)
  }

  /** Prepending a character to the first piece prepends it to the join. */
  lemma JoinCons(a: char, parts: seq<string>, c: char)
    requires |parts| >= 1
    ensures Join([[a] + parts[0]] + parts[1..], c) == [a] + Join(parts, c)
  {
    var q := [[a] + parts[0]] + parts[1..];
    assert q[1..] == parts[1..];
  }

  /** Splitting a join of `c`-free pieces gives the pieces back. */
  lemma {:induction false} SplitJoin(parts: seq<string>, c: char)
    requires |parts| >= 1
    requires forall i :: 0 <= i < |parts| ==> c !in parts[i]
    ensures Split(Join(parts, c), c) == parts
    decreases |parts|, |parts[0]|
  {
    var p := parts[0];
    if |p| == 0 {
      if |parts| > 1 {
        var s := Join(parts, c);
        assert s == [c] + Join(parts[1..], c);
        assert s[1..] == Join(parts[1..], c);
        SplitJoin(parts[1..], c);
        assert parts == [""] + parts[1..];
      }
    } else {
      var tail := [p[1..]] + parts[1..];
      assert tail[1..] == parts[1..];
      assert forall i :: 0 <= i < |tail| ==> c !in tail[i] by {
        forall i | 0 <= i < |tail| ensures c !in tail[i] {
          if i == 0 { assert forall x :: x in p[1..] ==> x in p; }
          else { assert tail[i] == parts[i]; }
        }
      }
      SplitJoin(tail, c);
      JoinCons(p[0], tail, c);
      assert [p[0]] + p[1..] == p;
      assert [[p[0]] + tail[0]] + tail[1..] == parts;
      var s := Join(parts, c);
      assert s == [p[0]] + Join(tail, c);
      assert s[1..] == Join(tail, c);
      assert s[0] == p[0] && p[0] != c;
    }
  }

  /** The number of occurrences of `c` in `s`. */
  function Count(s: string, c: char): nat {
    if |s| == 0 then 0 else (if s[0] == c then 1 else 0) + Count(s[1..], c)
  }

  /** The longest prefix of `s` that holds fewer than `k` copies of `c`: the
      text before the `k`-th `c`, or all of `s` when there are fewer. */
  function BeforeNth(s: string, c: char, k: nat): (r: string)
    requires k >= 1
    ensures |r| <= |s| && r == s[..|r|]
    ensures Count(r, c) < k
    ensures |r| < |s| ==> s[|r|] == c && Count(r, c) == k - 1
    ensures |r| == |s| ==> Count(s, c) < k
  {
    if |s| == 0 then ""
    else if s[0] == c then
      if k == 1 then "" else [c] + BeforeNth(s[1..], c, k - 1)
    else [s[0]] + BeforeNth(s[1..], c, k)
  }

  /** `xs.slice(0, k)`. */
  function Take<T>(xs: seq<T>, k: nat): seq<T> {
    if |xs| <= k then xs else xs[..k]
  }

  lemma TakeCons<T>(x: T, xs: seq<T>, k: nat)
    requires k >= 1
    ensures Take([x] + xs, k) == [x] + Take(xs, k - 1)
  {
    if |xs| > k - 1 { assert ([x] + xs)[..k] == [x] + xs[..k - 1]; }
  }

  /** Keeping the first `k` pieces of a split and joining them again is the
      text before the `k`-th separator. */
  lemma {:induction false} JoinTakeSplit(s: string, c: char, k: nat)
    requires k >= 1
    ensures Join(Take(Split(s, c), k), c) == BeforeNth(s, c, k)
  {
    if |s| > 0 {
      if s[0] == c {
        if k > 1 {
          JoinTakeSplit(s[1..], c, k - 1);
        }
        JoinTakeSplitAtSeparator(s, c, k);
      } else {
        JoinTakeSplit(s[1..], c, k);
        JoinTakeSplitAtOther(s, c, k);
      }
    }
  }

  /** The step of `JoinTakeSplit` for a string starting with the separator. */
  lemma JoinTakeSplitAtSeparator(s: string, c: char, k: nat)
    requires k >= 1 && |s| > 0 && s[0] == c
    requires k > 1 ==> Join(Take(Split(s[1..], c), k - 1), c) == BeforeNth(s[1..], c, k - 1)
    ensures Join(Take(Split(s, c), k), c) == BeforeNth(s, c, k)
  {
    var rest := Split(s[1..], c);
    TakeCons("", rest, k);
    if k > 1 {
      assert ([""] + Take(rest, k - 1))[1..] == Take(rest, k - 1);
    }
  }

  /** The step of `JoinTakeSplit` for a string starting with another
      character. */
  lemma JoinTakeSplitAtOther(s: string, c: char, k: nat)
    requires k >= 1 && |s| > 0 && s[0] != c
    requires Join(Take(Split(s[1..], c), k), c) == BeforeNth(s[1..], c, k)
    ensures Join(Take(Split(s, c), k), c) == BeforeNth(s, c, k)
  {
    var rest := Split(s[1..], c);
    var t := Take(rest, k);
    TakeCons([s[0]] + rest[0], rest[1..], k);
    assert rest == [rest[0]] + rest[1..];
    TakeCons(rest[0], rest[1..], k);
    JoinCons(s[0], t, c);
  }

  /** A string without the separator splits into itself alone. */
  lemma SplitWithout(s: string, c: char)
    requires c !in s
    ensures Split(s, c) == [s]
  {
    if |s| > 0 {
      assert c !in s[1..] by { assert forall x :: x in s[1..] ==> x in s; }
      SplitWithout(s[1..], c);
      assert [s[0]] + s[1..] == s;
    }
  }
}

=== FILE: timestamp.dfy ===
/** Timestamp synthesis (`getCurrentTimestamp` in src/ingest.js). Instants are
    integer epoch milliseconds. The clock, date parsing and `Math.random` are
    parameters: `now`, a `DateParser` and a stream of draws in [0, 1). */
module Timestamp {
  import opened Wrappers

  /** Largest magnitude of an ECMAScript time value (8.64e15 ms, section
      21.4.1.1 of ECMA-262); `toISOString` throws a RangeError beyond it. */
  const MaxTimeValue: int := 8_640_000_000_000_000

  /** Historic mode spaces consecutive lines this many milliseconds apart. */
  const MsPerLine: int := 10

  /** Chunk count used when the chunk field is empty, `0` or not a number. */
  const DefaultChunks: int := 10

  /** The three replay modes; the mode also selects the dispatch strategy. */
  datatype Mode = Sequential | Historic | Scattered

  /** Parsing of a date string (`new Date(text)`), an oracle: the time value,
      or `None` for an invalid date. */
  type DateParser = string -> Option<int>

  /** The successive results of `Math.random()`, an oracle. */
  type Draws = nat -> real

  /** Every draw lies in [0, 1), as `Math.random` promises. */
  ghost predicate UnitDraws(rand: Draws) {
    forall i: nat :: 0.0 <= rand(i) < 1.0
  }

  /** A time value kept only within the representable range. */
  function TimeClip(t: int): (r: Option<int>)
    ensures r.Some? <==> -MaxTimeValue <= t <= MaxTimeValue
    ensures r.Some? ==> r.value == t
  {
    if -MaxTimeValue <= t <= MaxTimeValue then Some(t) else None
  }

  /** `getRandomInt(lo, hi)`: `Math.floor(r * (hi - lo + 1)) + lo` for the
      draw `r`. */
  function RandomInt(r: real, lo: int, hi: int): int {
    (r * (hi - lo + 1) as real).Floor + lo
  }

  /** For a draw in [0, 1) the result lies in [lo, hi] when the range is
      non-empty; when `hi < lo` it lies in [hi + 1, lo] instead, so an empty
      range yields `lo` and a reversed one can yield values below `lo`. */
  lemma RandomIntRange(r: real, lo: int, hi: int)
    requires 0.0 <= r < 1.0
    ensures lo <= hi ==> lo <= RandomInt(r, lo, hi) <= hi
    ensures hi < lo ==> hi + 1 <= RandomInt(r, lo, hi) <= lo
  {
    var span := hi - lo + 1;
    var x := r * span as real;
    if span > 0 {
      ScaleWithin(r, span as real);
      FloorBetween(x, 0, span - 1);
    } else {
      ScaleWithinNegative(r, span as real);
      FloorBetween(x, span, 0);
    }
  }

  /** The floor of a real in [a, b + 1) lies in [a, b]. */
  lemma FloorBetween(x: real, a: int, b: int)
    requires a as real <= x < (b + 1) as real
    ensures a <= x.Floor <= b
  {
  }

  /** A draw in [0, 1) scales a positive span into [0, span). */
  lemma ScaleWithin(r: real, k: real)
    requires 0.0 <= r < 1.0 && k > 0.0
    ensures 0.0 <= r * k < k
  {
    assert r * k - k == (r - 1.0) * k;
  }

  /** A draw in [0, 1) scales a non-positive span into [span, 0]. */
  lemma ScaleWithinNegative(r: real, k: real)
    requires 0.0 <= r < 1.0 && k <= 0.0
    ensures k <= r * k <= 0.0
  {
    assert r * k - k == (r - 1.0) * k;
    assert (r - 1.0) * k == (1.0 - r) * (-k);
  }

  /** What a synthesised timestamp is: an instant, or (scattered mode) the
      instant of a line placed inside chunk `chunk`, whose line range is
      [`first`, `last`), or a RangeError thrown while formatting an invalid
      date. Instants are epoch milliseconds as `new Date(x)` keeps them,
      the fraction truncated. */
  datatype Stamp =
    | Instant(ms: int)
    | InChunk(chunk: int, first: int, last: int, ms: int)
    | RangeError

  /** `now.toISOString()`. */
  function Clock(now: int): Stamp {
    match TimeClip(now)
    case Some(t) => Instant(t)
    case None => RangeError
  }

  /** The mode-specific inputs of the synthesiser, as read from the form. */
  datatype TimeOptions = TimeOptions(
    historicTimestamp: string,
    scatteredStart: string,
    scatteredEnd: string,
    scatteredChunks: Option<int>)

  /** `new Date(options.historicTimestamp || now)`: an empty field means now. */
  function HistoricStart(field: string, parse: DateParser, now: int): Option<int> {
    if field == "" then TimeClip(now)
    else match parse(field)
      case None => None
      case Some(t) => TimeClip(t)
  }

  /** Historic mode: `start + index * 10`, or the clock when the start does
      not parse. */
  function HistoricStamp(field: string, parse: DateParser, now: int, index: int): (r: Stamp)
    ensures r.Instant? || r.RangeError?
  {
    match HistoricStart(field, parse, now)
    case None => Clock(now)
    case Some(start) => Clock(start + index * MsPerLine)
  }

  /** With a valid start, line `index` is stamped exactly `index * 10` ms
      after it when that instant is a valid date, and throws a RangeError
      when it is not. */
  lemma HistoricValue(field: string, parse: DateParser, now: int, start: int, index: int)
    requires HistoricStart(field, parse, now) == Some(start)
    ensures -MaxTimeValue <= start + index * MsPerLine <= MaxTimeValue
      ==> HistoricStamp(field, parse, now, index) == Instant(start + index * MsPerLine)
    ensures !(-MaxTimeValue <= start + index * MsPerLine <= MaxTimeValue)
      ==> HistoricStamp(field, parse, now, index) == RangeError
  {
  }

  /** Historic stamps of two line indices lie exactly 10 ms per step apart,
      so later lines are strictly later. */
  lemma HistoricSpacing(field: string, parse: DateParser, now: int, start: int, i: int, j: int)
    requires HistoricStart(field, parse, now) == Some(start)
    requires -MaxTimeValue <= start + i * MsPerLine <= MaxTimeValue
    requires -MaxTimeValue <= start + j * MsPerLine <= MaxTimeValue
    ensures HistoricStamp(field, parse, now, i).Instant? && HistoricStamp(field, parse, now, j).Instant?
    ensures HistoricStamp(field, parse, now, j).ms - HistoricStamp(field, parse, now, i).ms == (j - i) * MsPerLine
    ensures i < j ==> HistoricStamp(field, parse, now, i).ms < HistoricStamp(field, parse, now, j).ms
  {
    HistoricValue(field, parse, now, start, i);
    HistoricValue(field, parse, now, start, j);
  }

  /** An unparseable historic start falls back to the clock for every line. */
  lemma HistoricFallback(field: string, parse: DateParser, now: int, i: int)
    requires field != "" && parse(field).None?
    requires -MaxTimeValue <= now <= MaxTimeValue
    ensures HistoricStamp(field, parse, now, i) == Instant(now)
  {
  }

  /** `parseInt(text, 10) || fallback`, where `None` stands for NaN: a
      falsy parse (`0` or NaN) gives the fallback, any other integer, even a
      negative one, is kept. */
  function IntOr(parsed: Option<int>, fallback: int): (r: int)
    ensures (parsed.Some? && parsed.value != 0) ==> r == parsed.value
    ensures (parsed.None? || parsed.value == 0) ==> r == fallback
  {
    match parsed
    case Some(c) => if c == 0 then fallback else c
    case None => fallback
  }

  /** `options.scatteredChunks || 10`: a falsy count (`0` or NaN) becomes 10. */
  function ChunkCount(parsed: Option<int>): (r: int)
    ensures r != 0
    ensures parsed.Some? && parsed.value != 0 ==> r == parsed.value
  {
    IntOr(parsed, DefaultChunks)
  }

  /** `Math.floor(remainingLines / remainingChunks * 2)` for boundary `i`,
      where `prev` is boundary `i - 1`. The divisor is positive, so the
      integer quotient is the floor. */
  function MaxForChunk(n: int, chunks: int, prev: int, i: int): int
    requires 1 <= i < chunks
  {
    (2 * (n - prev)) / (chunks - i)
  }

  /** Boundary `i` is boundary `i - 1` plus the `(i - 1)`-th draw mapped into
      [1, maxForChunk]. */
  ghost predicate FollowsDraws(b: seq<int>, n: int, chunks: int, rand: Draws, from: nat)
    requires |b| == chunks + 1
  {
    forall i :: from <= i < chunks && 1 <= i ==>
      b[i] == b[i - 1] + RandomInt(rand(i - 1), 1, MaxForChunk(n, chunks, b[i - 1], i))
  }

  /** Completes a boundary array whose first `|b|` entries are drawn. */
  function FillBoundaries(n: int, chunks: int, rand: Draws, b: seq<int>): (r: seq<int>)
    requires 1 <= |b| <= chunks
    ensures |r| == chunks + 1 && r[..|b|] == b && r[chunks] == n
    ensures FollowsDraws(r, n, chunks, rand, |b|)
    decreases chunks - |b|
  {
    if |b| == chunks then b + [n]
    else
      var i := |b|;
      var b' := b + [b[i - 1] + RandomInt(rand(i - 1), 1, MaxForChunk(n, chunks, b[i - 1], i))];
      var r := FillBoundaries(n, chunks, rand, b');
      assert r[..i] == r[..i + 1][..i];
      r
  }

  /** The scattered chunk boundaries over `n` lines: `b[0] = 0`,
      `b[chunks] = n`, and each intermediate boundary adds one draw. */
  function Boundaries(n: int, chunks: int, rand: Draws): (b: seq<int>)
    requires chunks >= 1
    ensures |b| == chunks + 1 && b[0] == 0 && b[chunks] == n
  {
    FillBoundaries(n, chunks, rand, [0])
  }

  /** Every intermediate boundary adds its draw to the one before. */
  lemma BoundariesFollowDraws(n: int, chunks: int, rand: Draws)
    requires chunks >= 1
    ensures FollowsDraws(Boundaries(n, chunks, rand), n, chunks, rand, 1)
  {
  }

  /** Each step between intermediate boundaries lies in [1, maxForChunk]
      while that bound is at least 1, is exactly 1 when it is 0, and can be
      0 or negative only when it is negative, that is once an earlier
      boundary has passed `n`. */
  lemma BoundaryStep(n: int, chunks: int, rand: Draws, i: int)
    requires chunks >= 1 && UnitDraws(rand) && 1 <= i < chunks
    ensures var b := Boundaries(n, chunks, rand);
      var m := MaxForChunk(n, chunks, b[i - 1], i);
      && (m >= 1 ==> 1 <= b[i] - b[i - 1] <= m)
      && (m == 0 ==> b[i] - b[i - 1] == 1)
      && (m < 0 ==> m + 1 <= b[i] - b[i - 1] <= 1)
      && (b[i - 1] <= n <==> m >= 0)
  {
    var b := Boundaries(n, chunks, rand);
    BoundariesFollowDraws(n, chunks, rand);
    RandomIntRange(rand(i - 1), 1, MaxForChunk(n, chunks, b[i - 1], i));
  }

  /** While no intermediate boundary has passed `n`, `b[0..chunks-1]` is
      strictly increasing. */
  lemma BoundariesIncreasing(n: int, chunks: int, rand: Draws)
    requires chunks >= 1 && UnitDraws(rand)
    requires forall i :: 0 <= i < chunks - 1 ==> Boundaries(n, chunks, rand)[i] <= n
    ensures forall i, j :: 0 <= i < j < chunks ==> Boundaries(n, chunks, rand)[i] < Boundaries(n, chunks, rand)[j]
  {
    var b := Boundaries(n, chunks, rand);
    forall i | 1 <= i < chunks ensures b[i - 1] < b[i] {
      BoundaryStep(n, chunks, rand, i);
    }
    forall i, j | 0 <= i < j < chunks ensures b[i] < b[j] {
      StepsIncrease(b, i, j);
    }
  }

  lemma {:induction false} StepsIncrease(b: seq<int>, i: int, j: int)
    requires 0 <= i < j < |b|
    requires forall k :: i < k <= j ==> b[k - 1] < b[k]
    ensures b[i] < b[j]
    decreases j - i
  {
    if i + 1 < j { StepsIncrease(b, i, j - 1); }
  }

  /** The last intermediate boundary may pass `n`: the divisor there is 1,
      so its step may reach twice the remaining lines. With 10 lines in 2
      chunks and a draw of 0.75 the boundaries are [0, 16, 10]. */
  lemma BoundariesOvershoot(rand: Draws)
    requires rand(0) == 0.75
    ensures Boundaries(10, 2, rand) == [0, 16, 10]
  {
    var b := Boundaries(10, 2, rand);
    assert MaxForChunk(10, 2, 0, 1) == 20;
    assert RandomInt(0.75, 1, 20) == 16;
    assert b == [b[0], b[1], b[2]];
  }

  /** The chunk lookup loop `while (c < chunks && index >= b[c + 1]) c++`,
      started at `c`. */
  function FindChunk(b: seq<int>, chunks: int, index: int, c: int): (r: int)
    requires 0 <= c <= chunks && |b| == chunks + 1
    ensures c <= r <= chunks
    ensures forall j :: c < j <= r ==> b[j] <= index
    ensures r < chunks ==> index < b[r + 1]
    decreases chunks - c
  {
    if c < chunks && index >= b[c + 1] then FindChunk(b, chunks, index, c + 1) else c
  }

  /** The lookup always stops inside the array. For an index below
      `b[chunks]` it stops at a chunk `c < chunks`, so `b[c + 1]` exists,
      and the chunk holds the index: `b[c] <= index < b[c + 1]` whenever
      `b[0] <= index`. No ordering of the boundaries is needed. */
  lemma FindChunkInBounds(b: seq<int>, chunks: int, index: int)
    requires chunks >= 1 && |b| == chunks + 1
    requires index < b[chunks]
    ensures var c := FindChunk(b, chunks, index, 0);
      0 <= c < chunks && index < b[c + 1] && (b[0] <= index ==> b[c] <= index)
  {
    var c := FindChunk(b, chunks, index, 0);
    if c > 0 {
      assert b[c] <= index;
    }
  }

  /** The largest array length: `new Array(len)` throws a RangeError when
      `len` is not below 2^32 (section 23.1.1.1 of ECMA-262). */
  const MaxArrayLength: int := 4_294_967_295

  /** `Math.floor(chunkDuration * 0.1)` with `chunkDuration = totalDuration /
      chunks`, taken as exact arithmetic. */
  function JitterBound(total: int, chunks: int): int
    requires chunks >= 1
  {
    ((total as real / chunks as real) / 10.0).Floor
  }

  /** The jitter drawn for a scattered timestamp stays within a tenth of the
      chunk duration either side (rounded down), also when the window is
      reversed and the bound is negative. */
  lemma JitterRange(total: int, chunks: int, r: real)
    requires chunks >= 1 && 0.0 <= r < 1.0
    ensures var j := JitterBound(total, chunks);
      var d := RandomInt(r, -j, j);
      && (j >= 0 ==> -j <= d <= j)
      && (j < 0 ==> j < d <= -j)
      && j as real <= total as real / chunks as real / 10.0
  {
    var j := JitterBound(total, chunks);
    RandomIntRange(r, -j, j);
  }

  /** `x` with its fraction dropped (towards zero), as `new Date(x)` keeps a
      time value. */
  function Trunc(x: real): (t: int)
    ensures x >= 0.0 ==> t as real <= x < t as real + 1.0
    ensures x < 0.0 ==> t as real - 1.0 < x <= t as real
  {
    if x >= 0.0 then x.Floor else -((-x).Floor)
  }

  /** `chunkStartTime + chunkDuration * chunkProgress + jitter` for line
      `index` in chunk `c` of `chunks`, whose lines are [`first`, `last`),
      in a window of `total` ms from `start`; exact arithmetic. */
  function ChunkInstant(start: int, total: int, chunks: int, c: int, first: int, last: int, index: int, jitter: int): real
    requires chunks >= 1 && first != last
  {
    var chunkStart := start as real + total as real * (c as real / chunks as real);
    var duration := total as real / chunks as real;
    var progress := (index - first) as real / (last - first) as real;
    chunkStart + duration * progress + jitter as real
  }

  /** The stamp of line `index` once its chunk `c` is known: the jitter is
      the draw after the boundary draws, and an instant outside the range
      of dates makes `toISOString` throw. */
  function PlaceInChunk(start: int, total: int, chunks: int, b: seq<int>, c: int, index: int, draw: real): (r: Stamp)
    requires chunks >= 1 && |b| == chunks + 1 && 0 <= c < chunks && b[c] != b[c + 1]
    ensures r.InChunk? || r.RangeError?
    ensures r.InChunk? ==> r.chunk == c && r.first == b[c] && r.last == b[c + 1]
    ensures var j := JitterBound(total, chunks);
      var x := ChunkInstant(start, total, chunks, c, b[c], b[c + 1], index, RandomInt(draw, -j, j));
      && (r.InChunk? <==> -MaxTimeValue as real <= x <= MaxTimeValue as real)
      && (r.InChunk? ==> r.ms == Trunc(x))
  {
    var j := JitterBound(total, chunks);
    var x := ChunkInstant(start, total, chunks, c, b[c], b[c + 1], index, RandomInt(draw, -j, j));
    if -MaxTimeValue as real <= x <= MaxTimeValue as real then InChunk(c, b[c], b[c + 1], Trunc(x)) else RangeError
  }

  /** A placed line lies within its chunk's slice of the window, widened by
      the jitter bound, up to the dropped fraction: for a window of `total`
      ms the slice of chunk `c` starts `total * c / chunks` after `start` and
      lasts `total / chunks` (negative for a reversed window). */
  lemma PlacedNearChunk(start: int, total: int, chunks: int, b: seq<int>, c: int, index: int, draw: real)
    requires chunks >= 1 && |b| == chunks + 1 && 0 <= c < chunks && b[c] <= index < b[c + 1]
    requires 0.0 <= draw < 1.0
    ensures var r := PlaceInChunk(start, total, chunks, b, c, index, draw);
      var chunkStart := start as real + total as real * (c as real / chunks as real);
      var duration := total as real / chunks as real;
      var spread := Abs(JitterBound(total, chunks)) as real;
      r.InChunk? ==>
        && chunkStart + Min(duration, 0.0) - spread - 1.0 < r.ms as real
        && r.ms as real < chunkStart + Max(duration, 0.0) + spread + 1.0
  {
    var j := JitterBound(total, chunks);
    var jit := RandomInt(draw, -j, j);
    JitterRange(total, chunks, draw);
    assert 0 - Abs(j) <= jit <= Abs(j);
    ChunkInstantNear(start, total, chunks, c, b[c], b[c + 1], index, jit, Abs(j));
  }

  /** The exact instant lies within the chunk's slice widened by `spread`
      when the jitter does. */
  lemma ChunkInstantNear(start: int, total: int, chunks: int, c: int, first: int, last: int, index: int, jitter: int, spread: int)
    requires chunks >= 1 && first <= index < last && -spread <= jitter <= spread
    ensures var x := ChunkInstant(start, total, chunks, c, first, last, index, jitter);
      var chunkStart := start as real + total as real * (c as real / chunks as real);
      var duration := total as real / chunks as real;
      chunkStart + Min(duration, 0.0) - spread as real <= x <= chunkStart + Max(duration, 0.0) + spread as real
  {
    var chunkStart := start as real + total as real * (c as real / chunks as real);
    var duration := total as real / chunks as real;
    var progress := (index - first) as real / (last - first) as real;
    ProgressInUnit(index - first, last - first);
    ScaleByUnit(progress, duration);
    assert ChunkInstant(start, total, chunks, c, first, last, index, jitter) == chunkStart + duration * progress + jitter as real;
  }

  /** Within a chunk of a forward window, and with the same jitter, a later
      line gets a later instant: the lines of a chunk are spread over its
      slice, not stamped alike. */
  lemma ChunkInstantIncreasing(start: int, total: int, chunks: int, c: int, first: int, last: int, i: int, j: int, jitter: int)
    requires chunks >= 1 && total > 0 && first < last && i < j
    ensures ChunkInstant(start, total, chunks, c, first, last, i, jitter) < ChunkInstant(start, total, chunks, c, first, last, j, jitter)
  {
    var w := (last - first) as real;
    var d := total as real / chunks as real;
    var pi := (i - first) as real / w;
    var pj := (j - first) as real / w;
    assert pj - pi == (j - i) as real / w;
    assert 0.0 < pj - pi;
    assert 0.0 < d;
    MulPositive(d, pj - pi);
    assert d * pj - d * pi == d * (pj - pi);
  }

  lemma MulPositive(a: real, b: real)
    requires 0.0 < a && 0.0 < b
    ensures 0.0 < a * b
  {
  }

  function Abs(x: int): (r: int)
    ensures r >= 0 && (r == x || r == -x)
  {
    if x < 0 then -x else x
  }

  function Min(x: real, y: real): real {
    if x <= y then x else y
  }

  function Max(x: real, y: real): real {
    if x <= y then y else x
  }

  /** `chunkProgress` lies in [0, 1) for a line inside its chunk. */
  lemma ProgressInUnit(a: int, w: int)
    requires 0 <= a < w
    ensures 0.0 <= a as real / w as real < 1.0
  {
    assert (a as real / w as real) * w as real == a as real;
  }

  lemma MulNonNegative(a: real, b: real)
    requires 0.0 <= a && 0.0 <= b
    ensures 0.0 <= a * b
  {
  }

  /** Scaling by a factor in [0, 1) stays between 0 and the scaled value. */
  lemma ScaleByUnit(p: real, d: real)
    requires 0.0 <= p < 1.0
    ensures Min(d, 0.0) <= d * p <= Max(d, 0.0)
  {
    if d >= 0.0 {
      MulNonNegative(d, p);
      MulNonNegative(d, 1.0 - p);
      assert d * (1.0 - p) == d - d * p;
    } else {
      MulNonNegative(-d, p);
      MulNonNegative(-d, 1.0 - p);
      assert (-d) * p == -(d * p);
      assert (-d) * (1.0 - p) == d * p - d;
    }
  }

  /** Scattered mode. Unparsable dates give the current time. An invalid
      chunk count throws: a negative one or one of 2^32 - 1 or more gives an
      invalid array length (for -1 the date is NaN instead). So does a
      lookup that runs off the end or lands on a chunk whose line range is
      empty, and an instant out of the range of dates. */
  function ScatteredStamp(opts: TimeOptions, parse: DateParser, now: int, n: int, index: int, rand: Draws): (r: Stamp)
    ensures r.InChunk? ==> index < r.last && (0 <= index ==> r.first <= index)
    ensures r.InChunk? ==> 0 <= r.chunk < ChunkCount(opts.scatteredChunks)
  {
    var start := parse(opts.scatteredStart);
    var end := parse(opts.scatteredEnd);
    if start.None? || TimeClip(start.value).None? || end.None? || TimeClip(end.value).None? then Clock(now)
    else ScatterInWindow(start.value, end.value, ChunkCount(opts.scatteredChunks), n, index, rand)
  }

  /** Scattered mode once both dates are valid. A chunk count that is not a
      positive valid array length throws (a zero count, which the default
      rules out, would read a missing boundary and give an invalid date). */
  function ScatterInWindow(start: int, end: int, chunks: int, n: int, index: int, rand: Draws): (r: Stamp)
    ensures r.InChunk? ==> index < r.last && (0 <= index ==> r.first <= index)
    ensures r.InChunk? ==> 0 <= r.chunk < chunks
  {
    if chunks <= 0 || chunks >= MaxArrayLength then RangeError
    else LookUpAndPlace(start, end - start, chunks, n, index, rand)
  }

  /** Scattered mode once the window and the chunk count are valid. */
  function LookUpAndPlace(start: int, total: int, chunks: int, n: int, index: int, rand: Draws): (r: Stamp)
    requires chunks >= 1
    ensures r.InChunk? ==> index < r.last && (0 <= index ==> r.first <= index)
    ensures r.InChunk? ==> 0 <= r.chunk < chunks
  {
    var b := Boundaries(n, chunks, rand);
    var c := FindChunk(b, chunks, index, 0);
    if c == chunks || b[c] == b[c + 1] then RangeError
    else PlaceInChunk(start, total, chunks, b, c, index, rand(chunks - 1))
  }

  /** For a line index inside the file and a valid window, the lookup never
      fails: the line lands in a chunk `c < chunks` whose range holds it,
      and is placed there (its jitter drawn after the boundaries). */
  lemma ScatteredInBounds(opts: TimeOptions, parse: DateParser, now: int, n: int, index: int, rand: Draws)
    requires parse(opts.scatteredStart).Some? && TimeClip(parse(opts.scatteredStart).value).Some?
    requires parse(opts.scatteredEnd).Some? && TimeClip(parse(opts.scatteredEnd).value).Some?
    requires 0 < ChunkCount(opts.scatteredChunks) < MaxArrayLength
    requires 0 <= index < n
    ensures var chunks := ChunkCount(opts.scatteredChunks);
      var b := Boundaries(n, chunks, rand);
      var c := FindChunk(b, chunks, index, 0);
      var start := parse(opts.scatteredStart).value;
      && c < chunks
      && b[c] <= index < b[c + 1]
      && ScatteredStamp(opts, parse, now, n, index, rand) ==
           PlaceInChunk(start, parse(opts.scatteredEnd).value - start, chunks, b, c, index, rand(chunks - 1))
  {
    var chunks := ChunkCount(opts.scatteredChunks);
    var start := parse(opts.scatteredStart).value;
    var total := parse(opts.scatteredEnd).value - start;
    LookUpInBounds(start, total, chunks, n, index, rand);
    ScatteredValid(opts, parse, now, n, index, rand);
    WindowValid(start, parse(opts.scatteredEnd).value, chunks, n, index, rand);
  }

  /** With valid dates, scattered mode works in their window. */
  lemma ScatteredValid(opts: TimeOptions, parse: DateParser, now: int, n: int, index: int, rand: Draws)
    requires parse(opts.scatteredStart).Some? && TimeClip(parse(opts.scatteredStart).value).Some?
    requires parse(opts.scatteredEnd).Some? && TimeClip(parse(opts.scatteredEnd).value).Some?
    ensures ScatteredStamp(opts, parse, now, n, index, rand) ==
      ScatterInWindow(parse(opts.scatteredStart).value, parse(opts.scatteredEnd).value, ChunkCount(opts.scatteredChunks), n, index, rand)
  {
  }

  /** An unparseable or out-of-range scattered start or end falls back to
      the clock, whatever the chunk count. */
  lemma ScatteredFallback(opts: TimeOptions, parse: DateParser, now: int, n: int, index: int, rand: Draws)
    requires || parse(opts.scatteredStart).None? || TimeClip(parse(opts.scatteredStart).value).None?
             || parse(opts.scatteredEnd).None? || TimeClip(parse(opts.scatteredEnd).value).None?
    ensures ScatteredStamp(opts, parse, now, n, index, rand) == Clock(now)
  {
  }

  /** With a valid chunk count as well, it is the lookup. */
  lemma WindowValid(start: int, end: int, chunks: int, n: int, index: int, rand: Draws)
    requires 0 < chunks < MaxArrayLength
    ensures ScatterInWindow(start, end, chunks, n, index, rand) == LookUpAndPlace(start, end - start, chunks, n, index, rand)
  {
  }

  /** The lookup part of `ScatteredInBounds`. */
  lemma LookUpInBounds(start: int, total: int, chunks: int, n: int, index: int, rand: Draws)
    requires chunks >= 1 && 0 <= index < n
    ensures var b := Boundaries(n, chunks, rand);
      var c := FindChunk(b, chunks, index, 0);
      && c < chunks
      && b[c] <= index < b[c + 1]
      && LookUpAndPlace(start, total, chunks, n, index, rand) == PlaceInChunk(start, total, chunks, b, c, index, rand(chunks - 1))
  {
    FindChunkInBounds(Boundaries(n, chunks, rand), chunks, index);
  }

  /** A negative chunk count makes scattered mode throw whenever both dates
      parse. */
  lemma ScatteredNegativeChunks(opts: TimeOptions, parse: DateParser, now: int, n: int, index: int, rand: Draws)
    requires parse(opts.scatteredStart).Some? && TimeClip(parse(opts.scatteredStart).value).Some?
    requires parse(opts.scatteredEnd).Some? && TimeClip(parse(opts.scatteredEnd).value).Some?
    requires opts.scatteredChunks.Some? && opts.scatteredChunks.value < 0
    ensures ScatteredStamp(opts, parse, now, n, index, rand) == RangeError
  {
  }

  /** So does a chunk count too large for an array. */
  lemma ScatteredTooManyChunks(opts: TimeOptions, parse: DateParser, now: int, n: int, index: int, rand: Draws)
    requires parse(opts.scatteredStart).Some? && TimeClip(parse(opts.scatteredStart).value).Some?
    requires parse(opts.scatteredEnd).Some? && TimeClip(parse(opts.scatteredEnd).value).Some?
    requires opts.scatteredChunks.Some? && opts.scatteredChunks.value >= MaxArrayLength
    ensures ScatteredStamp(opts, parse, now, n, index, rand) == RangeError
  {
  }

  /** `getCurrentTimestamp(mode, index, logLines, options)` for a file of `n`
      lines. Only scattered mode places a line inside a chunk, and sequential
      mode always reads the clock. */
  function GetCurrentTimestamp(mode: Mode, index: int, n: int, opts: TimeOptions, parse: DateParser, now: int, rand: Draws): (r: Stamp)
    ensures r.InChunk? ==> mode == Scattered
    ensures mode == Sequential ==> r == Clock(now)
    ensures mode == Historic ==> r == HistoricStamp(opts.historicTimestamp, parse, now, index)
    ensures mode == Scattered ==> r == ScatteredStamp(opts, parse, now, n, index, rand)
  {
    match mode
    case Historic => HistoricStamp(opts.historicTimestamp, parse, now, index)
    case Scattered => ScatteredStamp(opts, parse, now, n, index, rand)
    case Sequential => Clock(now)
  }
}

=== FILE: workers.dfy ===
/** The worker sidebar's registry (`WorkerManager` in src/worker.js): a
    list of worker records and an id counter. The `onUpdate` callback is not
    modelled; every operation returns the new registry instead of changing
    it in place. */
module Workers {
  import opened Wrappers
  import opened Json
  import Payload

  /** A worker record. `config` is the free-form settings object that
      `updateWorker` merges into. */
  datatype Worker = Worker(
    id: int,
    name: string,
    status: string,
    progress: int,
    logLines: seq<string>,
    config: map<string, Value>)

  /** The registry: the workers in insertion order and the next id. */
  datatype Manager = Manager(workers: seq<Worker>, counter: int)

  /** A new registry: no workers, and the first id is 1. */
  const Fresh: Manager := Manager([], 1)

  /** The status of a new worker. */
  const IdleStatus: string := "Idle"

  /** The settings object of a new worker. */
  const DefaultConfig: map<string, Value> := map[
    "endpoint" := Str(""),
    "token" := Str(""),
    "delay" := Num(1000.0),
    "volume" := Num(1.0),
    "mode" := Str("sequential"),
    "options" := Obj(map[]),
    "currentLineIndex" := Num(0.0),
    "ingestInterval" := Null,
    "loopEnabled" := Bool(false)]

  /** Whether an optional name argument is truthy: present and not empty. */
  predicate Given(name: Option<string>) {
    name.Some? && name.value != ""
  }

  // ---------------------------------------------------------------------
  // Decimal rendering of ids

  function DigitChar(d: nat): (c: char)
    requires d < 10
    ensures Payload.IsDigit(c) && c as int - '0' as int == d
  {
    ('0' as int + d) as char
  }

  /** `${n}` for a non-negative integer. */
  function Decimal(n: nat): (r: string)
    ensures |r| >= 1 && Payload.AllDigits(r)
    ensures |r| > 1 ==> r[0] != '0'
  {
    if n < 10 then [DigitChar(n)] else Decimal(n / 10) + [DigitChar(n % 10)]
  }

  /** Reading the rendering back gives the number. */
  lemma {:induction false} DecimalRoundTrip(n: nat)
    ensures Payload.DigitsValue(Decimal(n)) == n
  {
    if n >= 10 {
      DecimalRoundTrip(n / 10);
      var r := Decimal(n);
      assert r[..|r| - 1] == Decimal(n / 10);
    } else {
      assert Decimal(n)[..0] == [];
    }
  }

  /** The name a worker gets when `addWorker` is called without one. */
  function DefaultName(id: nat): string {
    "Worker #" + Decimal(id)
  }

  // ---------------------------------------------------------------------
  // The registry invariant

  /** Ids strictly increasing along the list. */
  predicate Increasing(ws: seq<Worker>) {
    forall i, j :: 0 <= i < j < |ws| ==> ws[i].id < ws[j].id
  }

  /** Ids are strictly increasing along the list and all below the counter,
      which is positive. */
  predicate Valid(m: Manager) {
    && m.counter >= 1
    && Increasing(m.workers)
    && (forall i :: 0 <= i < |m.workers| ==> 1 <= m.workers[i].id < m.counter)
  }

  lemma FreshValid()
    ensures Valid(Fresh)
  {
  }

  /** In a valid registry no two workers share an id. */
  lemma ValidUnique(m: Manager, i: int, j: int)
    requires Valid(m) && 0 <= i < |m.workers| && 0 <= j < |m.workers|
    requires m.workers[i].id == m.workers[j].id
    ensures i == j
  {
  }

  // ---------------------------------------------------------------------
  // Operations

  /** `addWorker(name)`: the new worker takes the counter as its id and is
      appended; the counter moves on. */
  function AddWorker(m: Manager, name: Option<string>): (r: (Manager, Worker))
    ensures r.1.id == m.counter && r.0.counter == m.counter + 1
    ensures r.0.workers == m.workers + [r.1]
    ensures Given(name) ==> r.1.name == name.value
    ensures m.counter >= 0 && !Given(name) ==> r.1.name == DefaultName(m.counter)
    ensures r.1.status == IdleStatus && r.1.progress == 0 && r.1.logLines == [] && r.1.config == DefaultConfig
  {
    var id := m.counter;
    var title := if Given(name) then name.value else if id >= 0 then DefaultName(id) else "Worker #-" + Decimal(-id);
    var w := Worker(id, title, IdleStatus, 0, [], DefaultConfig);
    (Manager(m.workers + [w], m.counter + 1), w)
  }

  /** The position of the first worker with id `id`. */
  function IndexOf(ws: seq<Worker>, id: int): (r: Option<nat>)
    ensures r.Some? ==> r.value < |ws| && ws[r.value].id == id && forall j :: 0 <= j < r.value ==> ws[j].id != id
    ensures r.None? ==> forall j :: 0 <= j < |ws| ==> ws[j].id != id
  {
    if |ws| == 0 then None
    else if ws[0].id == id then Some(0)
    else match IndexOf(ws[1..], id)
      case None => None
      case Some(k) => Some(k + 1)
  }

  /** `getWorkerById(id)`: the first worker with that id, if any. */
  function GetWorkerById(m: Manager, id: int): (r: Option<Worker>)
    ensures r.Some? ==> r.value in m.workers && r.value.id == id
    ensures r.None? <==> forall w :: w in m.workers ==> w.id != id
  {
    match IndexOf(m.workers, id)
    case None => None
    case Some(k) => Some(m.workers[k])
  }

  /** The list with the worker at position `k` replaced. */
  function Replace(ws: seq<Worker>, k: nat, w: Worker): (r: seq<Worker>)
    requires k < |ws|
    ensures |r| == |ws| && r[k] == w
    ensures forall j :: 0 <= j < |ws| && j != k ==> r[j] == ws[j]
  {
    ws[..k] + [w] + ws[k + 1..]
  }

  /** `updateWorker(id, changes)`: `Object.assign(w.config, changes)` on the
      first worker with that id, whose settings take every key of
      `changes`; an unknown id changes nothing. */
  function UpdateWorker(m: Manager, id: int, changes: map<string, Value>): Manager {
    match IndexOf(m.workers, id)
    case None => m
    case Some(k) => m.(workers := Replace(m.workers, k, m.workers[k].(config := m.workers[k].config + changes)))
  }

  /** `killWorker(id)`: drop every worker with that id. */
  function KillWorker(m: Manager, id: int): Manager {
    m.(workers := Without(m.workers, id))
  }

  /** `workers.filter(w => w.id !== id)`. */
  function Without(ws: seq<Worker>, id: int): (r: seq<Worker>)
    ensures |r| <= |ws|
  {
    if |ws| == 0 then []
    else (if ws[0].id == id then [] else [ws[0]]) + Without(ws[1..], id)
  }

  /** `renameWorker(id, newName)`: only a truthy name, and only for a known
      id. */
  function RenameWorker(m: Manager, id: int, newName: Option<string>): Manager {
    if !Given(newName) then m
    else match IndexOf(m.workers, id)
      case None => m
      case Some(k) => m.(workers := Replace(m.workers, k, m.workers[k].(name := newName.value)))
  }

  // ---------------------------------------------------------------------
  // Properties

  /** Killing keeps exactly the workers with another id. */
  lemma {:induction false} WithoutMembers(ws: seq<Worker>, id: int)
    ensures forall w :: w in Without(ws, id) <==> w in ws && w.id != id
  {
    if |ws| > 0 {
      WithoutMembers(ws[1..], id);
      assert ws == [ws[0]] + ws[1..];
    }
  }

  /** Filtering distributes over concatenation, so the survivors keep their
      order. */
  lemma {:induction false} WithoutAppend(a: seq<Worker>, b: seq<Worker>, id: int)
    ensures Without(a + b, id) == Without(a, id) + Without(b, id)
  {
    if |a| == 0 {
      assert a + b == b;
    } else {
      assert (a + b)[0] == a[0];
      assert (a + b)[1..] == a[1..] + b;
      WithoutAppend(a[1..], b, id);
    }
  }

  lemma {:induction false} WithoutIncreasing(ws: seq<Worker>, id: int)
    requires Increasing(ws)
    ensures Increasing(Without(ws, id))
  {
    if |ws| > 0 {
      WithoutIncreasing(ws[1..], id);
      WithoutMembers(ws[1..], id);
      var rest := Without(ws[1..], id);
      if ws[0].id != id {
        assert forall w :: w in rest ==> ws[0].id < w.id;
        assert forall j :: 0 < j < |Without(ws, id)| ==> Without(ws, id)[j] == rest[j - 1];
      }
    }
  }

  /** Every operation keeps the registry valid; only `addWorker` moves the
      counter. */
  lemma KillKeepsValid(m: Manager, id: int)
    requires Valid(m)
    ensures Valid(KillWorker(m, id)) && KillWorker(m, id).counter == m.counter
  {
    WithoutIncreasing(m.workers, id);
    WithoutMembers(m.workers, id);
  }

  lemma AddKeepsValid(m: Manager, name: Option<string>)
    requires Valid(m)
    ensures Valid(AddWorker(m, name).0)
  {
  }

  lemma UpdateKeepsValid(m: Manager, id: int, changes: map<string, Value>)
    requires Valid(m)
    ensures Valid(UpdateWorker(m, id, changes)) && UpdateWorker(m, id, changes).counter == m.counter
  {
    var r := UpdateWorker(m, id, changes);
    assert forall i :: 0 <= i < |m.workers| ==> r.workers[i].id == m.workers[i].id;
  }

  lemma RenameKeepsValid(m: Manager, id: int, name: Option<string>)
    requires Valid(m)
    ensures Valid(RenameWorker(m, id, name)) && RenameWorker(m, id, name).counter == m.counter
  {
    var r := RenameWorker(m, id, name);
    assert forall i :: 0 <= i < |m.workers| ==> r.workers[i].id == m.workers[i].id;
  }

  /** A new worker's id exceeds every id the registry still holds, and every
      id it ever handed out, since those are below the counter. */
  lemma AddedIdIsNew(m: Manager, name: Option<string>)
    requires Valid(m)
    ensures forall w :: w in m.workers ==> w.id < AddWorker(m, name).1.id
  {
  }

  /** `updateWorker` touches only the settings of the worker with that id. */
  lemma UpdateWorkerSpec(m: Manager, id: int, changes: map<string, Value>)
    requires Valid(m)
    ensures var r := UpdateWorker(m, id, changes);
      && |r.workers| == |m.workers|
      && forall i :: 0 <= i < |m.workers| ==>
        r.workers[i] == if m.workers[i].id == id
          then m.workers[i].(config := m.workers[i].config + changes)
          else m.workers[i]
  {
    match IndexOf(m.workers, id)
    case None =>
    case Some(k) =>
      forall i | 0 <= i < |m.workers| && m.workers[i].id == id
        ensures i == k
      {
        ValidUnique(m, i, k);
      }
  }

  /** `renameWorker` renames only the worker with that id, and only to a
      truthy name. */
  lemma RenameWorkerSpec(m: Manager, id: int, newName: Option<string>)
    requires Valid(m)
    ensures var r := RenameWorker(m, id, newName);
      && |r.workers| == |m.workers|
      && forall i :: 0 <= i < |m.workers| ==>
        r.workers[i] == if m.workers[i].id == id && Given(newName)
          then m.workers[i].(name := newName.value)
          else m.workers[i]
  {
    if Given(newName) {
      match IndexOf(m.workers, id)
      case None =>
      case Some(k) =>
        forall i | 0 <= i < |m.workers| && m.workers[i].id == id
          ensures i == k
        {
          ValidUnique(m, i, k);
        }
    }
  }

  /** A freshly added worker is found by its id. */
  lemma AddThenGet(m: Manager, name: Option<string>)
    requires Valid(m)
    ensures GetWorkerById(AddWorker(m, name).0, AddWorker(m, name).1.id) == Some(AddWorker(m, name).1)
  {
    var (r, w) := AddWorker(m, name);
    assert r.workers[|m.workers|] == w;
  }

  /** The lookup in a list with a worker in front. */
  lemma IndexOfCons(w: Worker, ws: seq<Worker>, id: int)
    ensures var i := IndexOf(ws, id);
      IndexOf([w] + ws, id) == if w.id == id then Some(0) else if i.Some? then Some(i.value + 1) else None
  {
    assert ([w] + ws)[1..] == ws;
  }

  /** A killed worker is gone; looking up any other id finds the same
      worker as before. */
  lemma KillThenGet(m: Manager, id: int, other: int)
    ensures GetWorkerById(KillWorker(m, id), id).None?
    ensures other != id ==> GetWorkerById(KillWorker(m, id), other) == GetWorkerById(m, other)
  {
    WithoutMembers(m.workers, id);
    if other != id {
      WithoutKeepsFirst(m.workers, id, other);
    }
  }

  /** Dropping the workers with id `id` leaves the first worker with any
      other id first among those with that id. */
  lemma {:induction false} WithoutKeepsFirst(ws: seq<Worker>, id: int, other: int)
    requires other != id
    ensures var i := IndexOf(Without(ws, id), other);
      && (i.Some? <==> IndexOf(ws, other).Some?)
      && (i.Some? ==> Without(ws, id)[i.value] == ws[IndexOf(ws, other).value])
  {
    if |ws| > 0 {
      var rest := Without(ws[1..], id);
      IndexOfCons(ws[0], ws[1..], other);
      assert ws == [ws[0]] + ws[1..];
      if ws[0].id == id {
        assert Without(ws, id) == rest;
        WithoutKeepsFirst(ws[1..], id, other);
      } else {
        assert Without(ws, id) == [ws[0]] + rest;
        IndexOfCons(ws[0], rest, other);
        if ws[0].id != other {
          WithoutKeepsFirst(ws[1..], id, other);
        }
      }
    }
  }
}

=== FILE: wrappers.dfy ===
/** Optional values, used wherever the source returns `null`/`undefined`
    or an operation may have no answer. */
module Wrappers {

  datatype Option<+T> = None | Some(value: T)
}
